=== FILE: README.md ===
# Task store, automation engine and focus timer — a Dafny model

This project models the core of a personal task-management web app:

- **The task store** (lib/store.ts): a zustand store holding tasks, tags, automations, documents and a filter record.
  - The task, tag, automation, document and filter actions are modelled.
  - So is the automation engine `processAutomations`, which reacts to task events by creating tasks, changing priorities, adding tags or sending notifications.
  - So is the `useFilteredTasks` view.
- **The records of lib/types.ts**, as datatypes.
- **The automation card's one-line summaries**: `getTriggerDescription` and `getActionDescription` in components/features/automation/automation-card.tsx.
- **The Pomodoro timer** of app/focus/page.tsx: its completion, tick, reset and mode-button handlers, and `formatTime`.

Files:

| file | module | what |
|---|---|---|
| types.dfy | `Types` | tasks, tags, triggers, actions, automations, documents, partial updates, the filter record |
| seqs.dfy | `Seqs` | `Keep`, an order-preserving filter, and the subsequence relation |
| text.dfy | `Text` | decimal printing, two-digit padding, ASCII lower-casing, substring search |
| matching.dfy | `Matching` | which automations an event selects, including the due-soon day arithmetic |
| engine.dfy | `Engine` | the store's task actions and the engine as functions from state to state |
| collections.dfy | `Collections` | the by-id `map`/`filter` updates of tags, automations, documents and the tag filter |
| filtering.dfy | `Filtering` | `useFilteredTasks` |
| store.dfy | `TaskStore` | class `Store`, whose methods update its fields and are proved to agree with `Engine` |
| cascades.dfy | `Cascades` | concrete automation scenarios: what survives a cascade and in which order things happen |
| describe.dfy | `Describe` | the automation card's summaries, and what can be read back from them |
| focus.dfy | `Pomodoro` | the timer as step functions and as class `Timer` |

The store's state changes in place, so it is a class. Each method's new state is given exactly in terms of the old one: by a function of module `Engine` or `Collections`, or by an explicit record update. The properties are proved about those functions.

The timer is a class in the same way, with step functions in `Pomodoro`.

Fresh ids and the clock are made explicit:

- `uuidv4()` draws the `n`-th id `MintId(n)` from a counter `minted` in the state.
- `new Date()` is a parameter `now` (milliseconds).
- A notification appends its message to a `notifications` log.

## Behaviour of the code that the model keeps

These points follow lib/store.ts exactly.

- **Cascade effects on tasks are discarded.** `updateTask` and `completeTask` run `processAutomations` inside zustand's `set(fn)` and then return a task list computed before the cascade. So whatever the cascade did to `tasks` is overwritten. A follow-up task created on completion disappears (`Cascades.FollowUpDiscarded`). A tag added by a priority-change automation is lost (`Cascades.AddedTagLost`). The ids drawn and the notifications sent by the cascade remain.
- **`addTask` commits first and dispatches afterwards**, so its cascade's effects remain.
- **There is no cascade guard.** A task-created automation that creates a task triggers itself without end (`Cascades.SelfTriggerGrows`). A less obvious loop needs two automations on priority-changed(p), one setting priority p and one notifying. An update that raises a task to p makes the nested `updateTask` read the task list before the outer call has written it back. So the nested call sees the old priority and raises priority-changed(p) again, at every level: one notification per unit of fuel, and no end in the source (`Cascades.PriorityLoopNotifies`).
- **`completeTask` fires `task-completed` on every call**, even for a task already completed.
- **`deleteTag` leaves references behind.** It strips the tag from tasks and stamps every task's `updatedAt`, but leaves automations and documents that refer to the tag untouched.
- **The due-soon rule** compares `Math.ceil((due − now) / day)` with the automation's days. An overdue task therefore matches every active due-soon automation whose day count is zero or more; the model lets the count be any integer (`Matching.DueSoonBoundary`). No code in lib/store.ts raises a `task-due-soon` event, though. Its own calls to `processAutomations` (lib/store.ts:80, 100, 110, 140) raise task-created, priority-changed, tag-added and task-completed (`Cascades.NoDueSoonRaised`). So within the application these automations never fire.

## Model

| member | source | states |
|---|---|---|
| Types.PriorityName | lib/types.ts:1 | each priority prints as one of the four literals, and reading that literal back gives the priority |
| Types.PriorityFromName | lib/types.ts:1 | exactly the four literals `low`, `medium`, `high`, `urgent` are priorities |
| Types.StatusName | lib/types.ts:3 | each status prints as one of its four literals, and reading it back gives the status |
| Types.StatusFromName | lib/types.ts:3 | exactly the four literals `todo`, `in-progress`, `completed`, `archived` are statuses |
| Types.NamesRoundTrip | lib/types.ts:1-3 | a name that reads back as a priority or status prints back to the same name |
| Engine.MintId | lib/store.ts:69 | a fresh id is a non-empty tagged string |
| Engine.MintIdInjective | lib/store.ts:69 | different draws give different ids |
| Engine.FindIndex | lib/store.ts:85-86 | `findIndex`: the first index carrying the id, or none exactly when no task carries it |
| Engine.NewTask | lib/store.ts:68-73 | the new task has the fresh id, the caller's fields unchanged, and both stamps `now` |
| Engine.Merge | lib/store.ts:89-93 | each supplied field replaces the old one, every other field is kept, id and createdAt are kept, updatedAt is `now` |
| Engine.MarkCompleted | lib/store.ts:129-134 | status completed, completedAt and updatedAt `now`, every other field unchanged |
| Engine.CreatedInput | lib/store.ts:307-313 | a create-task action adds a todo task with its title, description defaulting to empty, priority to medium, tags to none |
| Engine.TagEvents | lib/store.ts:107-111 | one tag-added event for exactly the supplied tags the task did not have, never more events than tags supplied |
| Engine.TagEventsConcat | lib/store.ts:108-109 | the tag events of a concatenation are those of each part, in order |
| Engine.UpdateEvents | lib/store.ts:98-112 | priority-changed is raised iff a different priority is supplied, and comes first; tag-added is raised iff a supplied tag is new |
| Engine.AddTaskRun | lib/store.ts:67-81 | adding a task draws a fresh id, adds at least one task, and only appends notifications; tags, automations, documents and filter unchanged |
| Engine.UpdateTaskRun | lib/store.ts:83-116 | a missing id changes nothing; otherwise the task list is exactly the old one with that task merged, whatever the cascade did |
| Engine.CompleteTaskRun | lib/store.ts:124-144 | a missing id changes nothing; otherwise the task list is exactly the old one with that task completed, whatever the cascade did |
| Engine.ProcessEach | lib/store.ts:109-111 | processing a list of events in order keeps tags, automations, documents and filter, and only draws ids and appends notifications |
| Engine.ProcessRun | lib/store.ts:279-302 | one event's processing keeps tags, automations, documents and filter, and only draws ids and appends notifications |
| Engine.DispatchRun | lib/store.ts:303-335 | running the selected actions in turn keeps tags, automations, documents and filter |
| Engine.ActRun | lib/store.ts:305-334 | a single action never removes a task, and only draws ids and appends notifications; what each kind of action does is stated by `Cascades.CreateAdds`, `Cascades.ChangePriorityUpdates`, `Cascades.AddTagSkipsPresent`, `Cascades.AddTagAppends` and `Cascades.NotifyOnly` |
| Engine.DispatchStep | lib/store.ts:303 | the `forEach` step: dispatching a list is running its head's action, then dispatching the rest |
| Matching.CeilDiv | lib/store.ts:295-297 | `Math.ceil(n / d)` for positive `d`: the least `q` with `n <= q*d`, also for negative `n` |
| Matching.DaysUntilDue | lib/store.ts:293-298 | the whole days, rounded up, from now until the due date |
| Matching.DueSoonBoundary | lib/store.ts:293-298 | a task due now or earlier matches every active due-soon automation with a non-negative day count; one due more than that many days ahead matches none |
| Matching.ActiveOnly | lib/store.ts:283 | exactly the active automations are kept |
| Matching.TriggeredBy | lib/store.ts:284-302 | exactly the automations of the event's type whose type-specific condition holds are kept |
| Matching.StagesAreOneFilter | lib/store.ts:282-302 | the two filter stages select exactly what one filter by the per-type rule `Matches` selects |
| Matching.Selected | lib/store.ts:280-302 | the selection holds exactly the matching automations, in array order |
| Matching.SelectedConcat | lib/store.ts:282-303 | selection distributes over concatenation, so earlier automations act first |
| Collections.WithoutTask | lib/store.ts:118-122 | exactly the tasks with another id remain, in order and with every copy kept; nothing changes if no task has the id |
| Collections.WithoutTag | lib/store.ts:163 | exactly the tags with another id remain, in order and with every copy kept |
| Collections.StripTag | lib/store.ts:164-168 | every task loses exactly that tag id, keeps its other tags in order with every copy, is stamped `now`, and is otherwise unchanged |
| Collections.UpdateTagById | lib/store.ts:153-159 | the tags with that id take the supplied name and color; all others are unchanged |
| Collections.UpdateAutomationById | lib/store.ts:182-188 | the automations with that id take the supplied fields and keep id and createdAt; all others are unchanged |
| Collections.WithoutAutomation | lib/store.ts:190-194 | exactly the automations with another id remain, in order and with every copy kept |
| Collections.ToggleById | lib/store.ts:196-202 | the automations with that id flip `active` and nothing else; all others are unchanged |
| Collections.ToggleTwice | lib/store.ts:196-202 | toggling the same automation twice restores the list |
| Collections.UpdateDocumentById | lib/store.ts:219-227 | the documents with that id take the supplied fields and are stamped `now`; all others are unchanged |
| Collections.WithoutDocument | lib/store.ts:229-233 | exactly the documents with another id remain, in order and with every copy kept |
| Collections.ToggleTag | lib/store.ts:248-259 | the tag id is in the filter afterwards iff it was not before; other ids keep every copy, in order; an absent id is appended |
| Collections.ToggleTagTwice | lib/store.ts:248-259 | toggling an absent tag id in and out again restores the filter's tag list |
| Filtering.FilteredTasks | lib/store.ts:344-371 | an order-preserving selection of exactly the tasks passing the status, priority, tag and search tests, with every copy of a passing task kept; the reset filter shows every task |
| Filtering.SearchOkAt | lib/store.ts:365 | the search test holds iff the lower-cased query occurs at some index of the lower-cased title |
| Filtering.SearchIgnoresCase | lib/store.ts:364-366 | the search test is case-insensitive: upper- or lower-casing the query, or upper-casing the title, lets the same tasks through |
| Filtering.FilterIdempotent | lib/store.ts:344-371 | filtering the visible tasks again by the same filter changes nothing |
| Text.LowerChar | lib/store.ts:365 | the result is never an upper-case ASCII letter; `A`..`Z` move up by 32 to `a`..`z`; every other character is unchanged |
| Text.Lower | lib/store.ts:365 | `toLowerCase` keeps the length, lower-cases each character, and leaves no upper-case ASCII letter |
| Text.LowerForgetsCase | lib/store.ts:365 | lower-casing is idempotent, and an upper-cased string lower-cases to the same as the original |
| Text.IncludesAt | lib/store.ts:365 | `includes` holds iff the needle occurs at some index |
| Text.NatToString | app/focus/page.tsx:93 | `toString` of a whole number: decimal digits, no leading zero, whose value is the number |
| Text.PadTwo | app/focus/page.tsx:93 | `padStart(2, "0")`: at least two digits, same value |
| TaskStore.Store.constructor | lib/store.ts:51-64 | no tasks, automations or documents; the three default tags with fresh ids; the filter reset |
| TaskStore.Store.AddTask | lib/store.ts:67-81 | the store ends in the state `Engine.AddTaskRun` gives |
| TaskStore.Store.UpdateTask | lib/store.ts:83-116 | the store ends in the state `Engine.UpdateTaskRun` gives: every event of the update is processed in order, then the merged list is written |
| TaskStore.Store.DeleteTask | lib/store.ts:118-122 | only the task list changes, to the tasks with another id |
| TaskStore.Store.CompleteTask | lib/store.ts:124-144 | the store ends in the state `Engine.CompleteTaskRun` gives |
| TaskStore.Store.ProcessAutomations | lib/store.ts:279-302 | the store ends in the state `Engine.ProcessRun` gives, selecting from the automations as they are when the event arrives |
| TaskStore.Store.Dispatch | lib/store.ts:303-335 | the `forEach` runs each selected action on the store as the previous one left it |
| TaskStore.Store.RunAction | lib/store.ts:305-334 | the new state is exactly `Engine.ActRun`'s: `addTask`, `updateTask` on the subject's priority, `updateTask` adding a tag the subject lacks (nothing when it has it), or a logged notification |
| TaskStore.Store.AddTag | lib/store.ts:147-151 | a tag with a fresh id is appended; nothing else changes |
| TaskStore.Store.UpdateTag | lib/store.ts:153-159 | only the tags change, as `Collections.UpdateTagById` says |
| TaskStore.Store.DeleteTag | lib/store.ts:161-170 | the tag goes and every task loses it; automations and documents are untouched |
| TaskStore.Store.AddAutomation | lib/store.ts:173-180 | an automation with a fresh id and createdAt `now` is appended; nothing else changes |
| TaskStore.Store.UpdateAutomation | lib/store.ts:182-188 | only the automations change, as `Collections.UpdateAutomationById` says |
| TaskStore.Store.DeleteAutomation | lib/store.ts:190-194 | only the automations change, to those with another id |
| TaskStore.Store.ToggleAutomation | lib/store.ts:196-202 | only the automations change, as `Collections.ToggleById` says |
| TaskStore.Store.AddDocument | lib/store.ts:205-217 | a document with a fresh id and both stamps `now` is appended; nothing else changes |
| TaskStore.Store.UpdateDocument | lib/store.ts:219-227 | only the documents change, as `Collections.UpdateDocumentById` says |
| TaskStore.Store.DeleteDocument | lib/store.ts:229-233 | only the documents change, to those with another id |
| TaskStore.Store.SetStatusFilter | lib/store.ts:236-240 | only the filter's status changes |
| TaskStore.Store.SetPriorityFilter | lib/store.ts:242-246 | only the filter's priority changes |
| TaskStore.Store.ToggleTagFilter | lib/store.ts:248-259 | only the filter's tag list changes, as `Collections.ToggleTag` says |
| TaskStore.Store.SetSearchQuery | lib/store.ts:261-265 | only the filter's query changes |
| TaskStore.Store.ResetFilters | lib/store.ts:267-276 | the filter is reset, and then every task is visible |
| TaskStore.Store.Visible | lib/store.ts:344-371 | the visible tasks are an order-preserving selection of exactly the tasks passing the filter, every copy kept |
| Cascades.SelectedOne | lib/store.ts:282-302 | with one automation the selection is that automation exactly when it matches |
| Cascades.SelectedTwo | lib/store.ts:282-303 | with two automations the selection keeps their order |
| Cascades.ProcessNone | lib/store.ts:279-303 | an event no automation matches changes nothing |
| Cascades.DispatchOne | lib/store.ts:303-335 | dispatching a single automation is running its action |
| Cascades.ProcessOne | lib/store.ts:279-335 | an event matched by one automation runs exactly that automation's action |
| Cascades.CreateAdds | lib/store.ts:306-314 | a create-task action is `addTask` with the action's fields and their defaults |
| Cascades.ChangePriorityUpdates | lib/store.ts:316-320 | a change-priority action is `updateTask` on the subject's id with only the priority; a missing subject changes nothing, otherwise only its entry is rewritten, with the new priority and its tags kept |
| Cascades.AddTagSkipsPresent | lib/store.ts:322-323 | an add-tag action for a tag the subject already carries changes nothing |
| Cascades.AddTagAppends | lib/store.ts:322-328 | otherwise it is `updateTask` with the subject's tags, as the event saw them, plus the new one; only the subject's entry changes, its priority kept |
| Cascades.NoDueSoonRaised | lib/store.ts:80-140 | `addTask` processes only task-created for the task it commits, `completeTask` only task-completed for the completed task, and `updateTask` raises no due-soon event |
| Cascades.NotifyOnly | lib/store.ts:330-333 | a notification only appends its message to the log |
| Cascades.EachOne | lib/store.ts:109-111 | a single event is a single `processAutomations` call |
| Cascades.UpdateUnfold | lib/store.ts:83-116 | `updateTask` on a present id processes the events of the update against the old state, then writes the merged list |
| Cascades.AddUnfold | lib/store.ts:67-81 | `addTask` commits the task with a fresh id, then processes task-created for it |
| Cascades.NotifyTwo | lib/store.ts:303-333 | two notifications dispatched in turn append both messages, in order |
| Cascades.NotificationsInOrder | lib/store.ts:303-333 | two task-created notifications fire in automations-array order, after the task is added |
| Cascades.FollowUpDiscarded | lib/store.ts:124-144 | a follow-up task created on completion draws an id but is not in the resulting task list |
| Cascades.PriorityLoopNotifies | lib/store.ts:84-104 | with automations re-setting and notifying on priority-changed(p), raising a task to p sends one notification per unit of fuel, and the task list is the merged one |
| Cascades.SelfTriggerGrows | lib/store.ts:306-314 | a task-created automation that creates tasks adds one task per unit of fuel: no cascade guard |
| Cascades.PriorityChangeNotifies | lib/store.ts:98-104 | a priority-change automation notifies exactly when the supplied priority differs from the old one |
| Cascades.TagAddedNotifies | lib/store.ts:106-112 | adding a new tag notifies once through a tag-added automation, and the task list is the merged one |
| Cascades.AddedTagLost | lib/store.ts:83-116 | a tag added by a priority-change automation raises its notification but is missing from the resulting task |
| Describe.FindTag | components/features/automation/automation-card.tsx:30 | `find`: the first tag with the id, or none exactly when no tag has it |
| Describe.TagLabel | components/features/automation/automation-card.tsx:31 | the first matching tag's name when it is not empty; "Unknown" when no tag has the id or the first one with it has an empty name; never empty |
| Describe.Plural | components/features/automation/automation-card.tsx:26 | the suffix is empty exactly when the count is one |
| Describe.DueSoonText | components/features/automation/automation-card.tsx:26 | the due-soon sentence starts with its fixed lead, reads as due-soon and carries the count and unit after a fixed lead |
| Describe.PriorityChangedText | components/features/automation/automation-card.tsx:28 | the priority sentence starts with its fixed lead, reads as priority-changed and ends with the priority's name |
| Describe.TagAddedText | components/features/automation/automation-card.tsx:31 | the tag sentence starts with its fixed lead, reads as tag-added and carries the label at a fixed offset |
| Describe.TriggerDescription | components/features/automation/automation-card.tsx:19-35 | the summary's kind can be read back from it, as can the priority name or the tag label |
| Describe.DueSoonPlural | components/features/automation/automation-card.tsx:26 | the due-soon summary ends in "s" exactly when the count is not one |
| Describe.IntToStringInjective | components/features/automation/automation-card.tsx:26 | different counts print differently |
| Describe.DueSoonInjective | components/features/automation/automation-card.tsx:25-26 | the due-soon summary determines the number of days |
| Describe.TriggerDescriptionDetermines | components/features/automation/automation-card.tsx:19-35 | equal summaries mean the same kind, the same trigger unless it is a tag trigger, and the same label for tag triggers |
| Describe.CreateTaskText | components/features/automation/automation-card.tsx:40 | the create-task sentence starts with its fixed lead, reads as create-task and the title can be cut back out |
| Describe.ChangePriorityText | components/features/automation/automation-card.tsx:42 | the change-priority sentence starts with its fixed lead, reads as such and ends with the priority's name |
| Describe.AddTagText | components/features/automation/automation-card.tsx:45 | the add-tag sentence starts with its fixed lead, reads as add-tag and carries the label at a fixed offset |
| Describe.NotificationText | components/features/automation/automation-card.tsx:47 | the notification sentence starts with its fixed lead, reads as such and the message can be cut back out |
| Describe.ActionDescription | components/features/automation/automation-card.tsx:37-51 | the kind can be read back; so can the title, priority name, tag label or message |
| Describe.ActionDescriptionDetermines | components/features/automation/automation-card.tsx:37-51 | equal summaries mean the same kind, the same title, the same priority, the same message or the same label |
| Pomodoro.Duration | app/focus/page.tsx:77-87 | a full interval is the mode's minutes times 60, between one minute and one hour within the slider bounds |
| Pomodoro.CompleteStep | app/focus/page.tsx:52-69 | focus counts one more and goes to a long break iff the old count mod 4 is 3, else a short break; a break goes to focus with the count unchanged; full duration; started iff already running or the switch is on |
| Pomodoro.TickStep | app/focus/page.tsx:33-50 | no interval, no change; above one second, down by exactly one; at one second or less, exactly `Pomodoro.CompleteStep` on the stopped timer, so the mode switches and a focus interval counts a pomodoro; within bounds stays within bounds |
| Pomodoro.ResetStep | app/focus/page.tsx:75-88 | stopped, the current mode's full duration, mode and count unchanged |
| Pomodoro.SelectStep | app/focus/page.tsx:119-150 | the chosen mode, its full duration, stopped, count unchanged |
| Pomodoro.ResetIdempotent | app/focus/page.tsx:75-88 | resetting twice is resetting once; a reset right after a mode button changes nothing |
| Pomodoro.CompletionCycle | app/focus/page.tsx:53-67 | from focus, every second completion is back on focus with one more pomodoro, and the break between is long iff the count then is 3 mod 4 |
| Pomodoro.OneLongBreakInFour | app/focus/page.tsx:55-63 | of four pomodoros from a count divisible by four, only the fourth is followed by a long break |
| Pomodoro.FormatTime | app/focus/page.tsx:90-94 | minutes, a colon, two-digit seconds below 60, with minutes*60+seconds equal to the input; five characters below 100 minutes |
| Pomodoro.Timer.constructor | app/focus/page.tsx:23-31 | focus, stopped, 25 minutes left, no pomodoros, default settings |
| Pomodoro.Timer.Complete | app/focus/page.tsx:52-69 | the timer ends in the state `Pomodoro.CompleteStep` gives; settings unchanged |
| Pomodoro.Timer.Tick | app/focus/page.tsx:36-45 | the timer ends in the state `Pomodoro.TickStep` gives, and stays within bounds |
| Pomodoro.Timer.Toggle | app/focus/page.tsx:71-73 | only `running` flips |
| Pomodoro.Timer.Reset | app/focus/page.tsx:75-88 | the timer ends in the state `Pomodoro.ResetStep` gives, and stays within bounds |
| Pomodoro.Timer.Select | app/focus/page.tsx:119-150 | the timer ends in the state `Pomodoro.SelectStep` gives, and stays within bounds |
| Pomodoro.Timer.SetFocusMinutes | app/focus/page.tsx:192-199 | only the focus duration changes; the slider bounds keep the timer within bounds |
| Pomodoro.Timer.SetShortBreakMinutes | app/focus/page.tsx:204-211 | only the short-break duration changes; the slider bounds keep the timer within bounds |
| Pomodoro.Timer.SetLongBreakMinutes | app/focus/page.tsx:216-223 | only the long-break duration changes; the slider bounds keep the timer within bounds |
| Pomodoro.Timer.SetAutoStartBreaks | app/focus/page.tsx:230-234 | only the break auto-start switch changes |
| Pomodoro.Timer.SetAutoStartPomodoros | app/focus/page.tsx:239-243 | only the focus auto-start switch changes |
| Pomodoro.Timer.Display | app/focus/page.tsx:161 | the clock always shows five characters |

## Left out

- Persistence: the `persist` middleware and its storage key are not modelled. The store starts from its initial state.
- `uuidv4()` is modelled as the counter-based `MintId`. Minted ids are pairwise distinct. Ids supplied from outside the store are not modelled, so neither is a collision between them and minted ids.
- `new Date()` is the parameter `now`, one value per top-level call. The source reads the clock separately for `createdAt` and `updatedAt`, and again in the due-soon check. Dates are whole milliseconds.
- `console.log` of a notification is modelled as appending the message to `notifications`. The `Notification: ` prefix of the console line is not recorded.
- A partial update that sets a field explicitly to `undefined` is not modelled. `None` in `TaskUpdate`, `TagUpdate`, `AutomationUpdate` and `DocumentUpdate` means "not supplied".
- Cascades have no bound in the source. The model's `fuel` bounds them: an action runs with one unit less than the event that selected it, and a call with no fuel left selects nothing. A cascade that never ends in the source has no counterpart beyond the fuel given.
- Engine.AddTaskRun: does not state that the new task sits at the old length with the minted id, only that the list grows and an id is drawn. The per-index statement made every cascade proof too costly.
- Engine.Extends, Engine.ProcessRun, Engine.DispatchRun, Engine.ActRun: do not state that the tasks present before a cascade keep their ids, only that none is removed, for the same reason.
- `trigger.days` is a JavaScript number; the model takes whole days (`int`).
- The `'Unknown trigger'` and `'Unknown action'` branches are not modelled. Triggers and actions are closed unions here, so those branches cannot be reached.
- `toLowerCase` is modelled for ASCII letters only. Unicode case mapping is not modelled.
- Tag lists passed to the card functions are `any[]` in the source; the model uses the store's tags.
- React scheduling is not modelled.
  - The one-second `setInterval` and its clean-up are not modelled; `Tick` is one firing of the interval.
  - Stale closures are not modelled.
  - The order in which React applies the tick updater's own return value (0) and the duration set by `handleTimerComplete` is not modelled; the model applies the new duration.
- `calculateProgress` (app/focus/page.tsx:96-103) is not modelled: it computes a floating-point percentage for display only.
- Pomodoro.FormatTime: takes a natural number; negative seconds never reach it because `Timer.Valid` keeps the time left between 1 and 3600.
- Pomodoro.Timer.SetFocusMinutes, Pomodoro.Timer.SetShortBreakMinutes, Pomodoro.Timer.SetLongBreakMinutes: require the slider's bounds, since the sliders produce no other value.
- Projects, goals, whiteboards, the remaining pages and the UI components are not part of this model.

=== FILE: cascades.dfy ===
/** What the automation engine of lib/store.ts does in a few concrete
    configurations, derived from the Engine functions: the order in which
    actions run, the loss of task changes made during `updateTask` and
    `completeTask`, and the unbounded self-triggering cascade. */
module Cascades {
  import opened Types
  import opened Matching
  import opened Engine

  /** With a single automation the selection is that automation or nothing. */
  lemma SelectedOne(a: Automation, ev: Trigger, task: Task, now: int)
    ensures Selected([a], ev, task, now) == if Matches(a, ev, task, now) then [a] else []
  {
    StagesAreOneFilter([a], ev, task, now);
    assert [a][1..] == [];
  }

  /** With two automations the selection keeps their order. */
  lemma SelectedTwo(x: Automation, y: Automation, ev: Trigger, task: Task, now: int)
    ensures Selected([x, y], ev, task, now)
            == (if Matches(x, ev, task, now) then [x] else []) + (if Matches(y, ev, task, now) then [y] else [])
  {
    assert [x, y] == [x] + [y];
    SelectedConcat([x], [y], ev, task, now);
    SelectedOne(x, ev, task, now);
    SelectedOne(y, ev, task, now);
  }

  /** Tags the task already has raise no `tag-added` event. */
  lemma TagEventsNone(given: seq<Id>, had: seq<Id>)
    requires forall g :: g in given ==> g in had
    ensures TagEvents(given, had) == []
  {
  }

  /** An event that selects nothing leaves the state as it is. */
  lemma ProcessNone(st: State, ev: Trigger, task: Task, now: int, fuel: nat)
    requires Selected(st.automations, ev, task, now) == []
    ensures ProcessRun(st, ev, task, now, fuel) == st
  {
    if fuel > 0 {
      assert DispatchRun(st, [], task, now, fuel) == st;
    }
  }

  /** Dispatching one automation is running its action with one unit less. */
  lemma DispatchOne(st: State, a: Automation, task: Task, now: int, fuel: nat)
    requires fuel > 0
    ensures DispatchRun(st, [a], task, now, fuel) == ActRun(st, a.action, task, now, fuel - 1)
  {
    DispatchStep(st, [a], task, now, fuel);
    assert [a][1..] == [];
  }

  /** An event that selects one automation runs its action with one unit less. */
  lemma ProcessOne(st: State, ev: Trigger, task: Task, now: int, fuel: nat, a: Automation)
    requires Selected(st.automations, ev, task, now) == [a] && fuel > 0
    ensures ProcessRun(st, ev, task, now, fuel) == ActRun(st, a.action, task, now, fuel - 1)
  {
    DispatchOne(st, a, task, now, fuel);
  }

  /** A create-task action is `addTask` with the action's fields and the
      defaults of `CreatedInput`. */
  lemma CreateAdds(st: State, a: Action, task: Task, now: int, fuel: nat)
    requires a.CreateTask?
    ensures ActRun(st, a, task, now, fuel) == AddTaskRun(st, CreatedInput(a), now, fuel)
  {
  }

  /** A change-priority action is `updateTask` on the subject's id with only the
      priority supplied: nothing happens when the subject is gone, otherwise
      the subject's entry, and only it, is rewritten with the new priority. */
  lemma ChangePriorityUpdates(st: State, p: Priority, task: Task, now: int, fuel: nat)
    ensures ActRun(st, ChangePriority(p), task, now, fuel)
            == UpdateTaskRun(st, task.id, NoChanges.(priority := Some(p)), now, fuel)
    ensures FindIndex(st.tasks, task.id).None? ==> ActRun(st, ChangePriority(p), task, now, fuel) == st
    ensures FindIndex(st.tasks, task.id).Some? ==>
              var i := FindIndex(st.tasks, task.id).value;
              var r := ActRun(st, ChangePriority(p), task, now, fuel);
              r.tasks[i].priority == p && r.tasks[i].tags == st.tasks[i].tags
              && r.tasks == st.tasks[i := r.tasks[i]]
  {
  }

  /** An add-tag action for a tag the subject (as the event saw it) already
      carries does nothing at all. */
  lemma AddTagSkipsPresent(st: State, g: Id, task: Task, now: int, fuel: nat)
    requires g in task.tags
    ensures ActRun(st, AddTag(g), task, now, fuel) == st
  {
  }

  /** Otherwise it is `updateTask` on the subject's id with the subject's tags
      as the event saw them plus the new one; when the subject is found, its
      entry gets exactly those tags and keeps its priority. */
  lemma AddTagAppends(st: State, g: Id, task: Task, now: int, fuel: nat)
    requires g !in task.tags
    ensures ActRun(st, AddTag(g), task, now, fuel)
            == UpdateTaskRun(st, task.id, NoChanges.(tags := Some(task.tags + [g])), now, fuel)
    ensures FindIndex(st.tasks, task.id).Some? ==>
              var i := FindIndex(st.tasks, task.id).value;
              var r := ActRun(st, AddTag(g), task, now, fuel);
              r.tasks[i].tags == task.tags + [g] && r.tasks[i].priority == st.tasks[i].priority
              && r.tasks == st.tasks[i := r.tasks[i]]
  {
  }

  /** The store raises no `task-due-soon` event of its own: `addTask`
      processes `task-created` for the task it commits, `completeTask`
      processes `task-completed` for the completed task, and the events of
      `updateTask` are priority changes and added tags. */
  lemma NoDueSoonRaised(st: State, input: TaskInput, id: Id, upd: TaskUpdate, now: int, fuel: nat)
    ensures var t := NewTask(MintId(st.minted), input, now);
            AddTaskRun(st, input, now, fuel)
            == ProcessRun(st.(tasks := st.tasks + [t], minted := st.minted + 1), TaskCreated, t, now, fuel)
    ensures FindIndex(st.tasks, id).Some? ==>
              var i := FindIndex(st.tasks, id).value;
              var done := MarkCompleted(st.tasks[i], now);
              CompleteTaskRun(st, id, now, fuel)
              == ProcessRun(st, TaskCompleted, done, now, fuel).(tasks := st.tasks[i := done])
    ensures FindIndex(st.tasks, id).Some? ==>
              forall e :: e in UpdateEvents(st.tasks[FindIndex(st.tasks, id).value], upd) ==> !e.TaskDueSoon?
  {
  }

  /** A notification only appends its message to the log. */
  lemma NotifyOnly(st: State, a: Action, task: Task, now: int, fuel: nat)
    requires a.SendNotification?
    ensures ActRun(st, a, task, now, fuel) == st.(notifications := st.notifications + [a.message])
  {
  }

  /** One event is one `processAutomations` call. */
  lemma EachOne(st: State, ev: Trigger, task: Task, now: int, fuel: nat)
    ensures ProcessEach(st, [ev], task, now, fuel) == ProcessRun(st, ev, task, now, fuel)
  {
    var r := ProcessRun(st, ev, task, now, fuel);
    assert [ev][1..] == [];
    assert ProcessEach(r, [], task, now, fuel) == r;
  }

  /** `updateTask` on a present id: the events are processed against the
      current state and the task list is then replaced by the one built first. */
  lemma UpdateUnfold(st: State, id: Id, upd: TaskUpdate, now: int, fuel: nat)
    requires FindIndex(st.tasks, id).Some?
    ensures var i := FindIndex(st.tasks, id).value;
            var updated := Merge(st.tasks[i], upd, now);
            UpdateTaskRun(st, id, upd, now, fuel)
            == ProcessEach(st, UpdateEvents(st.tasks[i], upd), updated, now, fuel).(tasks := st.tasks[i := updated])
  {
  }

  /** Two task-created automations that notify: adding a task appends the task
      and sends both messages, in automations-array order. */
  lemma NotificationsInOrder(st: State, input: TaskInput, now: int, fuel: nat, x: Automation, y: Automation)
    requires st.automations == [x, y] && fuel > 0
    requires x.active && x.trigger == TaskCreated && x.action.SendNotification?
    requires y.active && y.trigger == TaskCreated && y.action.SendNotification?
    ensures var r := AddTaskRun(st, input, now, fuel);
            && r.notifications == st.notifications + [x.action.message, y.action.message]
            && r.tasks == st.tasks + [NewTask(MintId(st.minted), input, now)]
            && r.minted == st.minted + 1
  {
    var t := NewTask(MintId(st.minted), input, now);
    var committed := st.(tasks := st.tasks + [t], minted := st.minted + 1);
    AddUnfold(st, input, now, fuel);
    SelectedTwo(x, y, TaskCreated, t, now);
    NotifyTwo(committed, x, y, t, now, fuel);
  }

  /** Two notifications dispatched in a row append both messages, in order. */
  lemma NotifyTwo(st: State, x: Automation, y: Automation, task: Task, now: int, fuel: nat)
    requires fuel > 0 && x.action.SendNotification? && y.action.SendNotification?
    ensures DispatchRun(st, [x, y], task, now, fuel)
            == st.(notifications := st.notifications + [x.action.message, y.action.message])
  {
    var afterX := st.(notifications := st.notifications + [x.action.message]);
    NotifyOnly(st, x.action, task, now, fuel - 1);
    DispatchStep(st, [x, y], task, now, fuel);
    assert [x, y][1..] == [y];
    DispatchOne(afterX, y, task, now, fuel);
    NotifyOnly(afterX, y.action, task, now, fuel - 1);
    assert afterX.notifications + [y.action.message] == st.notifications + [x.action.message, y.action.message];
  }

  /** `addTask` commits the new task, then processes `task-created` for it. */
  lemma AddUnfold(st: State, input: TaskInput, now: int, fuel: nat)
    ensures var t := NewTask(MintId(st.minted), input, now);
            AddTaskRun(st, input, now, fuel)
            == ProcessRun(st.(tasks := st.tasks + [t], minted := st.minted + 1), TaskCreated, t, now, fuel)
  {
  }

  /** A task-completed automation that creates a follow-up task: the follow-up
      draws an id, but `completeTask` then writes back the task list it built
      before the cascade, so the follow-up is not in the store afterwards. */
  lemma FollowUpDiscarded(st: State, id: Id, now: int, fuel: nat, a: Automation)
    requires st.automations == [a] && fuel > 0
    requires a.active && a.trigger == TaskCompleted && a.action.CreateTask?
    requires FindIndex(st.tasks, id).Some?
    ensures var r := CompleteTaskRun(st, id, now, fuel);
            var i := FindIndex(st.tasks, id).value;
            && r.minted == st.minted + 1
            && r.tasks == st.tasks[i := MarkCompleted(st.tasks[i], now)]
  {
    var i := FindIndex(st.tasks, id).value;
    var updated := MarkCompleted(st.tasks[i], now);
    SelectedOne(a, TaskCompleted, updated, now);
    ProcessOne(st, TaskCompleted, updated, now, fuel, a);
    var t := NewTask(MintId(st.minted), CreatedInput(a.action), now);
    var committed := st.(tasks := st.tasks + [t], minted := st.minted + 1);
    SelectedOne(a, TaskCreated, t, now);
    ProcessNone(committed, TaskCreated, t, now, fuel - 1);
    AddUnfold(st, CreatedInput(a.action), now, fuel - 1);
    assert ActRun(st, a.action, updated, now, fuel - 1) == AddTaskRun(st, CreatedInput(a.action), now, fuel - 1);
  }

  /** An automation triggered by task creation that creates a task triggers
      itself: every unit of fuel adds one more task and draws one more id. The
      source has no bound here and recurses until the call stack is exhausted. */
  lemma {:induction false} SelfTriggerGrows(st: State, input: TaskInput, now: int, fuel: nat, a: Automation)
    requires st.automations == [a]
    requires a.active && a.trigger == TaskCreated && a.action.CreateTask?
    ensures var r := AddTaskRun(st, input, now, fuel);
            |r.tasks| == |st.tasks| + fuel + 1 && r.minted == st.minted + fuel + 1
    decreases fuel
  {
    var t := NewTask(MintId(st.minted), input, now);
    var committed := st.(tasks := st.tasks + [t], minted := st.minted + 1);
    AddUnfold(st, input, now, fuel);
    if fuel > 0 {
      SelectedOne(a, TaskCreated, t, now);
      ProcessOne(committed, TaskCreated, t, now, fuel, a);
      assert ActRun(committed, a.action, t, now, fuel - 1) == AddTaskRun(committed, CreatedInput(a.action), now, fuel - 1);
      SelfTriggerGrows(committed, CreatedInput(a.action), now, fuel - 1, a);
    }
  }

  /** `n` copies of the message `m`. */
  function Copies(m: string, n: nat): (r: seq<string>)
    ensures |r| == n && forall k :: 0 <= k < n ==> r[k] == m
  {
    if n == 0 then [] else Copies(m, n - 1) + [m]
  }

  /** Two automations on the same priority change, one setting that priority
      again and one notifying. The nested `updateTask` reads the task list the
      outer call has not yet written back, so it sees the old priority, raises
      the same event again, and so on: one notification per unit of fuel, and
      no end in the source. */
  lemma {:induction false} PriorityLoopNotifies(st: State, id: Id, p: Priority, now: int, fuel: nat,
                                                x: Automation, y: Automation)
    requires st.automations == [x, y]
    requires x.active && x.trigger == PriorityChanged(p) && x.action == ChangePriority(p)
    requires y.active && y.trigger == PriorityChanged(p) && y.action.SendNotification?
    requires FindIndex(st.tasks, id).Some?
    requires st.tasks[FindIndex(st.tasks, id).value].priority != p
    ensures var r := UpdateTaskRun(st, id, NoChanges.(priority := Some(p)), now, fuel);
            var i := FindIndex(st.tasks, id).value;
            && r.notifications == st.notifications + Copies(y.action.message, fuel)
            && r.tasks == st.tasks[i := Merge(st.tasks[i], NoChanges.(priority := Some(p)), now)]
    decreases fuel
  {
    var i := FindIndex(st.tasks, id).value;
    var upd := NoChanges.(priority := Some(p));
    var updated := Merge(st.tasks[i], upd, now);
    assert UpdateEvents(st.tasks[i], upd) == [PriorityChanged(p)];
    UpdateUnfold(st, id, upd, now, fuel);
    EachOne(st, PriorityChanged(p), updated, now, fuel);
    if fuel > 0 {
      SelectedTwo(x, y, PriorityChanged(p), updated, now);
      var inner := UpdateTaskRun(st, id, upd, now, fuel - 1);
      PriorityLoopNotifies(st, id, p, now, fuel - 1, x, y);
      assert ActRun(st, x.action, updated, now, fuel - 1) == inner;
      DispatchStep(st, [x, y], updated, now, fuel);
      assert [x, y][1..] == [y];
      DispatchOne(inner, y, updated, now, fuel);
      NotifyOnly(inner, y.action, updated, now, fuel - 1);
      assert inner.notifications + [y.action.message]
             == st.notifications + Copies(y.action.message, fuel);
    } else {
      assert ProcessRun(st, PriorityChanged(p), updated, now, fuel) == st;
    }
  }

  /** A priority-changed automation that notifies: an update that supplies
      priority `p` notifies exactly when the task's priority was not `p` before. */
  lemma PriorityChangeNotifies(st: State, id: Id, p: Priority, now: int, fuel: nat, a: Automation)
    requires st.automations == [a] && fuel > 0
    requires a.active && a.trigger == PriorityChanged(p) && a.action.SendNotification?
    requires FindIndex(st.tasks, id).Some?
    ensures var r := UpdateTaskRun(st, id, NoChanges.(priority := Some(p)), now, fuel);
            var prev := st.tasks[FindIndex(st.tasks, id).value];
            r.notifications == st.notifications + (if prev.priority != p then [a.action.message] else [])
  {
    var i := FindIndex(st.tasks, id).value;
    var upd := NoChanges.(priority := Some(p));
    var updated := Merge(st.tasks[i], upd, now);
    var evs := UpdateEvents(st.tasks[i], upd);
    if st.tasks[i].priority != p {
      assert evs == [PriorityChanged(p)];
      SelectedOne(a, PriorityChanged(p), updated, now);
      ProcessOne(st, PriorityChanged(p), updated, now, fuel, a);
      var notified := st.(notifications := st.notifications + [a.action.message]);
      assert ProcessRun(st, PriorityChanged(p), updated, now, fuel) == notified;
      assert ProcessEach(notified, [], updated, now, fuel) == notified;
      assert ProcessEach(st, evs, updated, now, fuel) == notified;
    } else {
      assert evs == [];
      assert ProcessEach(st, evs, updated, now, fuel) == st;
    }
  }

  /** A tag-added automation that notifies: an update that adds tag `g` to a
      task without it notifies once, and the task list is the updated one. */
  lemma TagAddedNotifies(st: State, id: Id, g: Id, now: int, fuel: nat, x: Automation, y: Automation)
    requires st.automations == [x, y] && fuel > 0
    requires !x.trigger.TagAdded? && y.active && y.trigger == TagAdded(g) && y.action.SendNotification?
    requires FindIndex(st.tasks, id).Some?
    requires g !in st.tasks[FindIndex(st.tasks, id).value].tags
    ensures var i := FindIndex(st.tasks, id).value;
            var upd := NoChanges.(tags := Some(st.tasks[i].tags + [g]));
            UpdateTaskRun(st, id, upd, now, fuel)
            == st.(notifications := st.notifications + [y.action.message],
                   tasks := st.tasks[i := Merge(st.tasks[i], upd, now)])
  {
    var i := FindIndex(st.tasks, id).value;
    var prev := st.tasks[i];
    var upd := NoChanges.(tags := Some(prev.tags + [g]));
    var updated := Merge(prev, upd, now);
    TagEventsConcat(prev.tags, [g], prev.tags);
    TagEventsNone(prev.tags, prev.tags);
    assert UpdateEvents(prev, upd) == [TagAdded(g)];
    assert !Matches(x, TagAdded(g), updated, now) && Matches(y, TagAdded(g), updated, now);
    SelectedTwo(x, y, TagAdded(g), updated, now);
    ProcessOne(st, TagAdded(g), updated, now, fuel, y);
    NotifyOnly(st, y.action, updated, now, fuel - 1);
    EachOne(st, TagAdded(g), updated, now, fuel);
    var notified := st.(notifications := st.notifications + [y.action.message]);
    assert ProcessEach(st, [TagAdded(g)], updated, now, fuel) == notified;
    UpdateUnfold(st, id, upd, now, fuel);
    assert UpdateTaskRun(st, id, upd, now, fuel) == notified.(tasks := st.tasks[i := updated]);
  }

  /** Two automations chained through a tag: raising a task to priority `p`
      makes the first add tag `g`, whose `tag-added` event makes the second
      notify. The notification stays, but both `updateTask` calls write back
      task lists built before their cascades, so the task ends up without `g`. */
  lemma AddedTagLost(st: State, id: Id, p: Priority, g: Id, now: int, fuel: nat, x: Automation, y: Automation)
    requires st.automations == [x, y] && fuel > 1
    requires x.active && x.trigger == PriorityChanged(p) && x.action == AddTag(g)
    requires y.active && y.trigger == TagAdded(g) && y.action.SendNotification?
    requires FindIndex(st.tasks, id).Some?
    requires st.tasks[FindIndex(st.tasks, id).value].priority != p
    requires g !in st.tasks[FindIndex(st.tasks, id).value].tags
    ensures var r := UpdateTaskRun(st, id, NoChanges.(priority := Some(p)), now, fuel);
            var i := FindIndex(st.tasks, id).value;
            && r.notifications == st.notifications + [y.action.message]
            && r.tasks[i].priority == p && g !in r.tasks[i].tags
  {
    var i := FindIndex(st.tasks, id).value;
    var prev := st.tasks[i];
    var upd := NoChanges.(priority := Some(p));
    var updated := Merge(prev, upd, now);
    TagAddedNotifies(st, id, g, now, fuel - 1, x, y);
    var inner := UpdateTaskRun(st, id, NoChanges.(tags := Some(prev.tags + [g])), now, fuel - 1);
    assert inner.notifications == st.notifications + [y.action.message];
    assert UpdateEvents(prev, upd) == [PriorityChanged(p)];
    assert Matches(x, PriorityChanged(p), updated, now) && !Matches(y, PriorityChanged(p), updated, now);
    SelectedTwo(x, y, PriorityChanged(p), updated, now);
    ProcessOne(st, PriorityChanged(p), updated, now, fuel, x);
    assert ActRun(st, x.action, updated, now, fuel - 1) == inner;
    EachOne(st, PriorityChanged(p), updated, now, fuel);
    var outer := ProcessEach(st, [PriorityChanged(p)], updated, now, fuel);
    assert outer == inner;
    UpdateUnfold(st, id, upd, now, fuel);
    var r := UpdateTaskRun(st, id, upd, now, fuel);
    assert r == outer.(tasks := st.tasks[i := updated]);
    assert r.notifications == inner.notifications;
  }
}

=== FILE: collections.dfy ===
/** The by-id updates of lib/store.ts that are plain `map`/`filter` expressions:
    deleting tasks, tags, automations and documents, updating tags, automations
    and documents, toggling an automation, stripping a deleted tag from tasks,
    and toggling a tag in the filter. */
module Collections {
  import opened Types
  import opened Seqs

  /** `tasks.filter(task => task.id !== id)`. */
  function WithoutTask(tasks: seq<Task>, id: Id): (r: seq<Task>)
    ensures forall t :: t in r <==> t in tasks && t.id != id
    ensures IsSubseq(r, tasks)
    ensures (forall i :: 0 <= i < |tasks| ==> tasks[i].id != id) ==> r == tasks
    ensures forall t :: multiset(r)[t] == if t.id != id then multiset(tasks)[t] else 0
  {
    KeepCounts(tasks, (t: Task) => t.id != id);
    Keep(tasks, (t: Task) => t.id != id)
  }

  /** `tags.filter(tag => tag.id !== id)`. */
  function WithoutTag(tags: seq<Tag>, id: Id): (r: seq<Tag>)
    ensures forall t :: t in r <==> t in tags && t.id != id
    ensures IsSubseq(r, tags)
    ensures forall t :: multiset(r)[t] == if t.id != id then multiset(tags)[t] else 0
  {
    KeepCounts(tags, (t: Tag) => t.id != id);
    Keep(tags, (t: Tag) => t.id != id)
  }

  /** `automations.filter(automation => automation.id !== id)`. */
  function WithoutAutomation(autos: seq<Automation>, id: Id): (r: seq<Automation>)
    ensures forall a :: a in r <==> a in autos && a.id != id
    ensures IsSubseq(r, autos)
    ensures forall a :: multiset(r)[a] == if a.id != id then multiset(autos)[a] else 0
  {
    KeepCounts(autos, (a: Automation) => a.id != id);
    Keep(autos, (a: Automation) => a.id != id)
  }

  /** `documents.filter(doc => doc.id !== id)`. */
  function WithoutDocument(docs: seq<Document>, id: Id): (r: seq<Document>)
    ensures forall d :: d in r <==> d in docs && d.id != id
    ensures IsSubseq(r, docs)
    ensures forall d :: multiset(r)[d] == if d.id != id then multiset(docs)[d] else 0
  {
    KeepCounts(docs, (d: Document) => d.id != id);
    Keep(docs, (d: Document) => d.id != id)
  }

  /** `ids.filter(x => x !== id)`: every other id, each copy kept, in order. */
  function WithoutId(ids: seq<Id>, id: Id): (r: seq<Id>)
    ensures forall x :: x in r <==> x in ids && x != id
    ensures IsSubseq(r, ids)
    ensures forall x :: multiset(r)[x] == if x != id then multiset(ids)[x] else 0
  {
    KeepCounts(ids, (x: Id) => x != id);
    Keep(ids, (x: Id) => x != id)
  }

  /** The task half of `deleteTag`: every task loses the tag id and is stamped
      `updatedAt = now`, whether or not it carried the tag. */
  function StripTag(tasks: seq<Task>, id: Id, now: int): (r: seq<Task>)
    ensures |r| == |tasks|
    ensures forall i :: 0 <= i < |r| ==>
              r[i].(tags := tasks[i].tags, updatedAt := tasks[i].updatedAt) == tasks[i]
    ensures forall i :: 0 <= i < |r| ==> r[i].updatedAt == now && IsSubseq(r[i].tags, tasks[i].tags)
    ensures forall i, x :: 0 <= i < |r| ==> (x in r[i].tags <==> x in tasks[i].tags && x != id)
    ensures forall i, x :: 0 <= i < |r| ==>
              multiset(r[i].tags)[x] == if x != id then multiset(tasks[i].tags)[x] else 0
  {
    seq(|tasks|, i requires 0 <= i < |tasks| =>
      tasks[i].(tags := WithoutId(tasks[i].tags, id), updatedAt := now))
  }

  /** `Partial<Omit<Tag, 'id'>>`. */
  datatype TagUpdate = TagUpdate(name: Option<string>, color: Option<string>)

  /** `tags.map(tag => tag.id === id ? { ...tag, ...updates } : tag)`. */
  function UpdateTagById(tags: seq<Tag>, id: Id, upd: TagUpdate): (r: seq<Tag>)
    ensures |r| == |tags|
    ensures forall i :: 0 <= i < |r| && tags[i].id != id ==> r[i] == tags[i]
    ensures forall i :: 0 <= i < |r| && tags[i].id == id ==>
              && r[i].id == id
              && r[i].name == (if upd.name.Some? then upd.name.value else tags[i].name)
              && r[i].color == (if upd.color.Some? then upd.color.value else tags[i].color)
  {
    seq(|tags|, i requires 0 <= i < |tags| =>
      if tags[i].id == id
      then tags[i].(name := upd.name.GetOr(tags[i].name), color := upd.color.GetOr(tags[i].color))
      else tags[i])
  }

  /** `Partial<Omit<Automation, 'id' | 'createdAt'>>`. */
  datatype AutomationUpdate = AutomationUpdate(
    name: Option<string>,
    active: Option<bool>,
    trigger: Option<Trigger>,
    action: Option<Action>)

  /** `automations.map(a => a.id === id ? { ...a, ...updates } : a)`. */
  function UpdateAutomationById(autos: seq<Automation>, id: Id, upd: AutomationUpdate): (r: seq<Automation>)
    ensures |r| == |autos|
    ensures forall i :: 0 <= i < |r| && autos[i].id != id ==> r[i] == autos[i]
    ensures forall i :: 0 <= i < |r| && autos[i].id == id ==>
              && r[i].id == id && r[i].createdAt == autos[i].createdAt
              && r[i].name == (if upd.name.Some? then upd.name.value else autos[i].name)
              && r[i].active == (if upd.active.Some? then upd.active.value else autos[i].active)
              && r[i].trigger == (if upd.trigger.Some? then upd.trigger.value else autos[i].trigger)
              && r[i].action == (if upd.action.Some? then upd.action.value else autos[i].action)
  {
    seq(|autos|, i requires 0 <= i < |autos| =>
      if autos[i].id == id
      then autos[i].(name := upd.name.GetOr(autos[i].name), active := upd.active.GetOr(autos[i].active),
                     trigger := upd.trigger.GetOr(autos[i].trigger), action := upd.action.GetOr(autos[i].action))
      else autos[i])
  }

  /** `toggleAutomation`: flips `active` on the automations with that id. */
  function ToggleById(autos: seq<Automation>, id: Id): (r: seq<Automation>)
    ensures |r| == |autos|
    ensures forall i :: 0 <= i < |r| && autos[i].id != id ==> r[i] == autos[i]
    ensures forall i :: 0 <= i < |r| && autos[i].id == id ==>
              r[i].active == !autos[i].active && r[i].(active := autos[i].active) == autos[i]
  {
    seq(|autos|, i requires 0 <= i < |autos| =>
      if autos[i].id == id then autos[i].(active := !autos[i].active) else autos[i])
  }

  /** Toggling the same automation twice restores the list. */
  lemma ToggleTwice(autos: seq<Automation>, id: Id)
    ensures ToggleById(ToggleById(autos, id), id) == autos
  {
    var r := ToggleById(ToggleById(autos, id), id);
    assert forall i :: 0 <= i < |autos| ==> r[i] == autos[i];
  }

  /** `Partial<Omit<Document, 'id' | 'createdAt' | 'updatedAt'>>`. */
  datatype DocumentUpdate = DocumentUpdate(title: Option<string>, content: Option<string>, tags: Option<seq<Id>>)

  /** `documents.map(doc => doc.id === id ? { ...doc, ...updates, updatedAt: now } : doc)`. */
  function UpdateDocumentById(docs: seq<Document>, id: Id, upd: DocumentUpdate, now: int): (r: seq<Document>)
    ensures |r| == |docs|
    ensures forall i :: 0 <= i < |r| && docs[i].id != id ==> r[i] == docs[i]
    ensures forall i :: 0 <= i < |r| && docs[i].id == id ==>
              && r[i].id == id && r[i].createdAt == docs[i].createdAt && r[i].updatedAt == now
              && r[i].title == (if upd.title.Some? then upd.title.value else docs[i].title)
              && r[i].content == (if upd.content.Some? then upd.content.value else docs[i].content)
              && r[i].tags == (if upd.tags.Some? then upd.tags.value else docs[i].tags)
  {
    seq(|docs|, i requires 0 <= i < |docs| =>
      if docs[i].id == id
      then docs[i].(title := upd.title.GetOr(docs[i].title), content := upd.content.GetOr(docs[i].content),
                    tags := upd.tags.GetOr(docs[i].tags), updatedAt := now)
      else docs[i])
  }

  /** `toggleTagFilter`: removes every copy of a present id, appends an absent one. */
  function ToggleTag(tags: seq<Id>, t: Id): (r: seq<Id>)
    ensures t in r <==> t !in tags
    ensures forall x :: x != t ==> (x in r <==> x in tags)
    ensures t !in tags ==> r == tags + [t]
    ensures t in tags ==> IsSubseq(r, tags)
    ensures t in tags ==> forall x :: multiset(r)[x] == if x != t then multiset(tags)[x] else 0
  {
    if t in tags then WithoutId(tags, t) else tags + [t]
  }

  /** Adding an absent tag to the filter and toggling it again restores the filter. */
  lemma ToggleTagTwice(tags: seq<Id>, t: Id)
    requires t !in tags
    ensures ToggleTag(ToggleTag(tags, t), t) == tags
  {
    KeepConcat(tags, [t], (x: Id) => x != t);
  }
}

=== FILE: describe.dfy ===
/** The one-line summaries an automation card shows, from
    components/features/automation/automation-card.tsx: `getTriggerDescription`
    and `getActionDescription`. Each summary is proved to identify the kind of
    trigger or action it describes and to carry its payload at a fixed place. */
module Describe {
  import opened Types
  import opened Text

  /** `tags.find(t => t.id === id)`: the first tag with that id. */
  function FindTag(tags: seq<Tag>, id: Id): (r: Option<Tag>)
    ensures r.Some? ==> r.value in tags && r.value.id == id
    ensures r.Some? ==> exists k :: 0 <= k < |tags| && tags[k] == r.value && forall j :: 0 <= j < k ==> tags[j].id != id
    ensures r.None? <==> forall k :: 0 <= k < |tags| ==> tags[k].id != id
  {
    if tags == [] then None
    else if tags[0].id == id then Some(tags[0])
    else FindTag(tags[1..], id)
  }

  /** `tag?.name || 'Unknown'`: a missing tag and a tag with an empty name both
      show as "Unknown"; the label is never empty. */
  function TagLabel(tags: seq<Tag>, id: Id): (s: string)
    ensures s != ""
    ensures (forall k :: 0 <= k < |tags| ==> tags[k].id != id) ==> s == "Unknown"
    ensures forall k :: (0 <= k < |tags| && tags[k].id == id && tags[k].name != ""
                         && forall j :: 0 <= j < k ==> tags[j].id != id) ==> s == tags[k].name
    ensures forall k :: (0 <= k < |tags| && tags[k].id == id && tags[k].name == ""
                         && forall j :: 0 <= j < k ==> tags[j].id != id) ==> s == "Unknown"
  {
    match FindTag(tags, id)
    case Some(tag) => if tag.name != "" then tag.name else "Unknown"
    case None => "Unknown"
  }

  datatype TriggerKind = CreatedKind | CompletedKind | DueSoonKind | PriorityKind | TagKind

  function KindOfTrigger(t: Trigger): TriggerKind
  {
    match t
    case TaskCreated => CreatedKind
    case TaskCompleted => CompletedKind
    case TaskDueSoon(_) => DueSoonKind
    case PriorityChanged(_) => PriorityKind
    case TagAdded(_) => TagKind
  }

  /** Reads the kind back from a trigger summary. Each sentence function below
      states the fixed lead its sentence starts with; these are the characters
      at which those leads first differ ("When the \"" has `t` at 5, "When a
      task's" a quote at 11, "When a task is due" `d` at 15, "created" `r` at 16). */
  function TriggerKindOfText(s: string): TriggerKind
    requires |s| > 16
  {
    if s[5] == 't' then TagKind
    else if s[11] == '\'' then PriorityKind
    else if s[15] == 'd' then DueSoonKind
    else if s[16] == 'r' then CreatedKind
    else CompletedKind
  }

  /** "s" unless the count is exactly one. */
  function Plural(n: int): (s: string)
    ensures s == "" <==> n == 1
  {
    if n != 1 then "s" else ""
  }

  /** The due-soon sentence; the count follows the 26-character lead. */
  function DueSoonText(days: int): (s: string)
    ensures |s| > 26 && TriggerKindOfText(s) == DueSoonKind
    ensures "When a task is due within " <= s
    ensures s[26..] == IntToString(days) + (" day" + Plural(days))
  {
    var lead := "When a task is due within ";
    var rest := IntToString(days) + (" day" + Plural(days));
    assert (lead + rest)[|lead|..] == rest;
    lead + rest
  }

  /** The priority-change sentence; the priority name is its 37-character tail. */
  function PriorityChangedText(p: Priority): (s: string)
    ensures |s| > 37 && TriggerKindOfText(s) == PriorityKind
    ensures "When a task's priority is changed to " <= s
    ensures s[37..] == PriorityName(p)
  {
    "When a task's priority is changed to " + PriorityName(p)
  }

  /** The tag-added sentence, with the label between a 10-character lead and a
      24-character tail. */
  function TagAddedText(shown: string): (s: string)
    ensures |s| >= 34 && TriggerKindOfText(s) == TagKind
    ensures "When the \"" <= s
    ensures s[10..|s| - 24] == shown
  {
    var lead := "When the \"";
    var tail := "\" tag is added to a task";
    assert (lead + shown + tail)[|lead|..|lead| + |shown|] == shown;
    lead + shown + tail
  }

  /** `getTriggerDescription`. The summary names its kind and carries the
      priority name or the tag label at a fixed offset. */
  function TriggerDescription(t: Trigger, tags: seq<Tag>): (s: string)
    ensures |s| > 16
    ensures TriggerKindOfText(s) == KindOfTrigger(t)
    ensures t.PriorityChanged? ==> |s| > 37 && s[37..] == PriorityName(t.priority)
    ensures t.TagAdded? ==> |s| >= 34 && s[10..|s| - 24] == TagLabel(tags, t.tag)
  {
    match t
    case TaskCreated => "When a task is created"
    case TaskCompleted => "When a task is completed"
    case TaskDueSoon(days) => DueSoonText(days)
    case PriorityChanged(p) => PriorityChangedText(p)
    case TagAdded(g) => TagAddedText(TagLabel(tags, g))
  }

  /** The due-soon summary says "days" exactly when the count is not one. */
  lemma DueSoonPlural(days: int, tags: seq<Tag>)
    ensures var s := TriggerDescription(TaskDueSoon(days), tags);
            s[|s| - 1] == 's' <==> days != 1
  {
    var s := TriggerDescription(TaskDueSoon(days), tags);
    if days == 1 {
      assert s == "When a task is due within 1 day";
    }
  }

  /** Different integers print differently. */
  lemma IntToStringInjective(m: int, n: int)
    requires IntToString(m) == IntToString(n)
    ensures m == n
  {
    if m < 0 && n < 0 {
      assert IntToString(m)[1..] == NatToString(-m);
      assert IntToString(n)[1..] == NatToString(-n);
    }
  }

  /** A string without spaces followed by one that starts with a space: the
      first part is determined by the whole. */
  lemma SplitAtSpace(a: string, b: string, c: string, d: string)
    requires a + b == c + d
    requires ' ' !in a && ' ' !in c && |b| > 0 && |d| > 0 && b[0] == ' ' && d[0] == ' '
    ensures a == c
  {
    var s := a + b;
    assert forall i :: 0 <= i < |a| ==> s[i] != ' ' by {
      assert forall i :: 0 <= i < |a| ==> s[i] == a[i];
    }
    assert s[|a|] == ' ';
    assert forall i :: 0 <= i < |c| ==> s[i] != ' ' by {
      assert forall i :: 0 <= i < |c| ==> s[i] == (c + d)[i] == c[i];
    }
    assert s[|c|] == (c + d)[|c|] == ' ';
    assert a == s[..|a|];
    assert c == (c + d)[..|c|];
  }

  /** Printed integers contain no space. */
  lemma NoSpaceInInt(n: int)
    ensures ' ' !in IntToString(n)
  {
    var s := IntToString(n);
    if n >= 0 {
      assert forall i :: 0 <= i < |s| ==> IsDigit(s[i]);
    } else {
      var digits := NatToString(-n);
      assert forall i :: 0 <= i < |digits| ==> IsDigit(digits[i]);
      assert forall i :: 1 <= i < |s| ==> s[i] == digits[i - 1];
    }
  }

  /** The due-soon summary determines the number of days. */
  lemma DueSoonInjective(a: int, b: int, tags: seq<Tag>)
    requires TriggerDescription(TaskDueSoon(a), tags) == TriggerDescription(TaskDueSoon(b), tags)
    ensures a == b
  {
    assert DueSoonText(a)[26..] == DueSoonText(b)[26..];
    NoSpaceInInt(a);
    NoSpaceInInt(b);
    SplitAtSpace(IntToString(a), " day" + Plural(a), IntToString(b), " day" + Plural(b));
    IntToStringInjective(a, b);
  }

  /** Two triggers with the same summary are of the same kind, and equal unless
      they are tag triggers (whose summary shows only the tag's label). */
  lemma TriggerDescriptionDetermines(t1: Trigger, t2: Trigger, tags: seq<Tag>)
    requires TriggerDescription(t1, tags) == TriggerDescription(t2, tags)
    ensures KindOfTrigger(t1) == KindOfTrigger(t2)
    ensures !t1.TagAdded? ==> t1 == t2
    ensures t1.TagAdded? ==> TagLabel(tags, t1.tag) == TagLabel(tags, t2.tag)
  {
    if t1.TaskDueSoon? && t2.TaskDueSoon? {
      DueSoonInjective(t1.days, t2.days, tags);
    }
  }

  datatype ActionKind = CreateKind | ChangePriorityKind | AddTagKind | NotifyKind

  function KindOfAction(a: Action): ActionKind
  {
    match a
    case CreateTask(_, _, _, _) => CreateKind
    case ChangePriority(_) => ChangePriorityKind
    case AddTag(_) => AddTagKind
    case SendNotification(_) => NotifyKind
  }

  /** Reads the kind back from an action summary by its first two characters,
      where the four leads stated below first differ. */
  function ActionKindOfText(s: string): ActionKind
    requires |s| > 1
  {
    if s[0] == 'A' then AddTagKind
    else if s[0] == 'S' then NotifyKind
    else if s[1] == 'r' then CreateKind
    else ChangePriorityKind
  }

  /** The create-task sentence, with the title between the lead and a quote. */
  function CreateTaskText(title: string): (s: string)
    ensures |s| >= 20 && ActionKindOfText(s) == CreateKind
    ensures "Create a new task \"" <= s
    ensures s[19..|s| - 1] == title
  {
    var lead := "Create a new task \"";
    assert (lead + title + "\"")[|lead|..|lead| + |title|] == title;
    lead + title + "\""
  }

  /** The change-priority sentence; the priority name follows a 24-character lead. */
  function ChangePriorityText(p: Priority): (s: string)
    ensures |s| > 24 && ActionKindOfText(s) == ChangePriorityKind
    ensures "Change task priority to " <= s
    ensures s[24..] == PriorityName(p)
  {
    "Change task priority to " + PriorityName(p)
  }

  /** The add-tag sentence, with the label between a 9-character lead and a
      17-character tail. */
  function AddTagText(shown: string): (s: string)
    ensures |s| >= 26 && ActionKindOfText(s) == AddTagKind
    ensures "Add the \"" <= s
    ensures s[9..|s| - 17] == shown
  {
    var lead := "Add the \"";
    var tail := "\" tag to the task";
    assert (lead + shown + tail)[|lead|..|lead| + |shown|] == shown;
    lead + shown + tail
  }

  /** The notification sentence, with the message between the lead and a quote. */
  function NotificationText(m: string): (s: string)
    ensures |s| >= 21 && ActionKindOfText(s) == NotifyKind
    ensures "Send notification: \"" <= s
    ensures s[20..|s| - 1] == m
  {
    var lead := "Send notification: \"";
    assert (lead + m + "\"")[|lead|..|lead| + |m|] == m;
    lead + m + "\""
  }

  /** `getActionDescription`. The summary names its kind and carries the title,
      priority name, tag label or message at a fixed offset, so the title and
      the message can be read back exactly. */
  function ActionDescription(a: Action, tags: seq<Tag>): (s: string)
    ensures |s| > 1 && ActionKindOfText(s) == KindOfAction(a)
    ensures a.CreateTask? ==> |s| >= 20 && s[19..|s| - 1] == a.title
    ensures a.ChangePriority? ==> |s| > 24 && s[24..] == PriorityName(a.target)
    ensures a.AddTag? ==> |s| >= 26 && s[9..|s| - 17] == TagLabel(tags, a.tag)
    ensures a.SendNotification? ==> |s| >= 21 && s[20..|s| - 1] == a.message
  {
    match a
    case CreateTask(title, _, _, _) => CreateTaskText(title)
    case ChangePriority(p) => ChangePriorityText(p)
    case AddTag(g) => AddTagText(TagLabel(tags, g))
    case SendNotification(m) => NotificationText(m)
  }

  /** Two actions with the same summary are of the same kind; create-task and
      send-notification summaries determine the title and the message. */
  lemma ActionDescriptionDetermines(a1: Action, a2: Action, tags: seq<Tag>)
    requires ActionDescription(a1, tags) == ActionDescription(a2, tags)
    ensures KindOfAction(a1) == KindOfAction(a2)
    ensures a1.CreateTask? ==> a1.title == a2.title
    ensures a1.ChangePriority? ==> a1 == a2
    ensures a1.SendNotification? ==> a1 == a2
    ensures a1.AddTag? ==> TagLabel(tags, a1.tag) == TagLabel(tags, a2.tag)
  {
  }
}

=== FILE: engine.dfy ===
/** The task actions of lib/store.ts and the automation engine they feed, as
    functions from one store state to the next.

    The source runs inside zustand's `set(fn)`: `fn` receives the current
    state, any store action called while `fn` runs commits at once, and the
    object `fn` returns is merged over the state as it is when `fn` returns.
    `updateTask` and `completeTask` call `processAutomations` inside `fn` and
    return `{ tasks: newTasks }` computed before the cascade, so the cascade
    sees the pre-update tasks and whatever it does to `tasks` is overwritten;
    the ids it draws and the notifications it sends remain. `addTask` commits
    first and dispatches afterwards, so its cascade's effects remain.

    The source has no bound on cascades. `fuel` is a device of this model only:
    the actions a `processAutomations` call runs get one unit less than the call
    itself, and a call with none left selects nothing. For any run of the source
    that finishes, enough fuel gives the same result. */
module Engine {
  import opened Types
  import opened Matching
  import Text

  /** The store's collections, plus what the model makes explicit: how many
      fresh ids have been drawn and the messages sent by notifications. */
  datatype State = State(
    tasks: seq<Task>,
    tags: seq<Tag>,
    automations: seq<Automation>,
    documents: seq<Document>,
    filter: TaskFilter,
    minted: nat,
    notifications: seq<string>)

  /** The `n`-th fresh id, standing in for `uuidv4()`. */
  function MintId(n: nat): (id: Id)
    ensures |id| > 3 && id[..3] == "id-"
  {
    "id-" + Text.NatToString(n)
  }

  /** Different draws give different ids. */
  lemma MintIdInjective(m: nat, n: nat)
    requires MintId(m) == MintId(n)
    ensures m == n
  {
    assert MintId(m)[3..] == Text.NatToString(m);
    assert MintId(n)[3..] == Text.NatToString(n);
  }

  /** `tasks.findIndex(task => task.id === id)`, with `None` for `-1`. */
  function FindIndex(tasks: seq<Task>, id: Id): (r: Option<nat>)
    ensures r.Some? ==> r.value < |tasks| && tasks[r.value].id == id
    ensures r.Some? ==> forall j :: 0 <= j < r.value ==> tasks[j].id != id
    ensures r.None? ==> forall j :: 0 <= j < |tasks| ==> tasks[j].id != id
  {
    if tasks == [] then None
    else if tasks[0].id == id then Some(0)
    else
      match FindIndex(tasks[1..], id)
      case None => None
      case Some(k) => Some(k + 1)
  }

  /** The fields of a task that `addTask` takes from its argument. */
  function AsInput(t: Task): TaskInput
  {
    TaskInput(t.title, t.description, t.status, t.priority, t.tags, t.dueDate, t.completedAt)
  }

  /** The task `addTask` builds: a fresh id, the caller's fields, both stamps `now`. */
  function NewTask(id: Id, input: TaskInput, now: int): (t: Task)
    ensures t.id == id && t.createdAt == now && t.updatedAt == now
    ensures AsInput(t) == input
  {
    Task(id, input.title, input.description, input.status, input.priority, input.tags,
         input.dueDate, now, now, input.completedAt)
  }

  /** `{ ...oldTask, ...updates, updatedAt: now }`. */
  function Merge(prev: Task, upd: TaskUpdate, now: int): (t: Task)
    ensures t.id == prev.id && t.createdAt == prev.createdAt && t.updatedAt == now
    ensures t.title == (if upd.title.Some? then upd.title.value else prev.title)
    ensures t.description == (if upd.description.Some? then upd.description else prev.description)
    ensures t.status == (if upd.status.Some? then upd.status.value else prev.status)
    ensures t.priority == (if upd.priority.Some? then upd.priority.value else prev.priority)
    ensures t.tags == (if upd.tags.Some? then upd.tags.value else prev.tags)
    ensures t.dueDate == (if upd.dueDate.Some? then upd.dueDate else prev.dueDate)
    ensures t.completedAt == (if upd.completedAt.Some? then upd.completedAt else prev.completedAt)
  {
    Task(prev.id, upd.title.GetOr(prev.title),
         if upd.description.Some? then upd.description else prev.description,
         upd.status.GetOr(prev.status), upd.priority.GetOr(prev.priority), upd.tags.GetOr(prev.tags),
         if upd.dueDate.Some? then upd.dueDate else prev.dueDate,
         prev.createdAt, now,
         if upd.completedAt.Some? then upd.completedAt else prev.completedAt)
  }

  /** The task `completeTask` writes back: completed and stamped, nothing else changed. */
  function MarkCompleted(t: Task, now: int): (c: Task)
    ensures c.status == Types.Completed && c.completedAt == Some(now) && c.updatedAt == now
    ensures c.(status := t.status, completedAt := t.completedAt, updatedAt := t.updatedAt) == t
  {
    t.(status := Types.Completed, completedAt := Some(now), updatedAt := now)
  }

  /** The argument a `create-task` action passes to `addTask`, with its defaults. */
  function CreatedInput(a: Action): (input: TaskInput)
    requires a.CreateTask?
    ensures input.title == a.title && input.status == Todo
    ensures input.description == Some(if a.description.Some? then a.description.value else "")
    ensures input.priority == (if a.newPriority.Some? then a.newPriority.value else Medium)
    ensures input.tags == (if a.newTags.Some? then a.newTags.value else [])
    ensures input.dueDate.None? && input.completedAt.None?
  {
    TaskInput(a.title, Some(a.description.GetOr("")), Todo, a.newPriority.GetOr(Medium),
              a.newTags.GetOr([]), None, None)
  }

  /** One `tag-added` event per element of `given` that `had` lacks, in order. */
  function TagEvents(given: seq<Id>, had: seq<Id>): (evs: seq<Trigger>)
    ensures |evs| <= |given|
    ensures forall e :: e in evs ==> e.TagAdded?
    ensures forall g :: TagAdded(g) in evs <==> g in given && g !in had
  {
    if given == [] then []
    else (if given[0] in had then [] else [TagAdded(given[0])]) + TagEvents(given[1..], had)
  }

  /** Events for a concatenation are the events for each part, in order. */
  lemma {:induction false} TagEventsConcat(a: seq<Id>, b: seq<Id>, had: seq<Id>)
    ensures TagEvents(a + b, had) == TagEvents(a, had) + TagEvents(b, had)
  {
    if a != [] {
      assert (a + b)[0] == a[0];
      assert (a + b)[1..] == a[1..] + b;
      TagEventsConcat(a[1..], b, had);
    } else {
      assert a + b == b;
    }
  }

  /** The events `updateTask` hands to the engine: `priority-changed` first, if
      a priority is supplied that differs from the old one, then the tag events. */
  function UpdateEvents(prev: Task, upd: TaskUpdate): (evs: seq<Trigger>)
    ensures forall p :: PriorityChanged(p) in evs <==> upd.priority == Some(p) && p != prev.priority
    ensures forall g :: TagAdded(g) in evs <==> upd.tags.Some? && g in upd.tags.value && g !in prev.tags
    ensures forall e :: e in evs ==> e.PriorityChanged? || e.TagAdded?
    ensures forall j :: 0 < j < |evs| ==> evs[j].TagAdded?
  {
    (if upd.priority.Some? && upd.priority.value != prev.priority then [PriorityChanged(upd.priority.value)] else [])
    + (if upd.tags.Some? then TagEvents(upd.tags.value, prev.tags) else [])
  }

  /** What any cascade keeps: tags, automations, documents and the filter are
      untouched, ids are only drawn, notifications only appended, and no task
      is removed. */
  predicate Extends(st: State, r: State)
  {
    && r.tags == st.tags && r.automations == st.automations
    && r.documents == st.documents && r.filter == st.filter
    && st.minted <= r.minted && st.notifications <= r.notifications
    && |st.tasks| <= |r.tasks|
  }

  /** `addTask`: commit the new task, then dispatch `task-created` for it. */
  function AddTaskRun(st: State, input: TaskInput, now: int, fuel: nat): (r: State)
    ensures Extends(st, r) && r.minted > st.minted
    ensures |r.tasks| > |st.tasks|
    decreases fuel, 2, 0
  {
    var t := NewTask(MintId(st.minted), input, now);
    var committed := st.(tasks := st.tasks + [t], minted := st.minted + 1);
    ProcessRun(committed, TaskCreated, t, now, fuel)
  }

  /** `updateTask`: on a missing id nothing happens; otherwise the events are
      dispatched against the pre-update state and the updated list is then
      written over whatever the cascade did to the tasks. */
  function UpdateTaskRun(st: State, id: Id, upd: TaskUpdate, now: int, fuel: nat): (r: State)
    ensures Extends(st, r) && |r.tasks| == |st.tasks|
    ensures FindIndex(st.tasks, id).None? ==> r == st
    ensures FindIndex(st.tasks, id).Some? ==>
              var i := FindIndex(st.tasks, id).value;
              r.tasks == st.tasks[i := Merge(st.tasks[i], upd, now)]
    decreases fuel, 3, 0
  {
    match FindIndex(st.tasks, id)
    case None => st
    case Some(i) =>
      var updated := Merge(st.tasks[i], upd, now);
      var after := ProcessEach(st, UpdateEvents(st.tasks[i], upd), updated, now, fuel);
      after.(tasks := st.tasks[i := updated])
  }

  /** `completeTask`: like `updateTask`, with the single event `task-completed`,
      sent on every call that finds the task. */
  function CompleteTaskRun(st: State, id: Id, now: int, fuel: nat): (r: State)
    ensures Extends(st, r) && |r.tasks| == |st.tasks|
    ensures FindIndex(st.tasks, id).None? ==> r == st
    ensures FindIndex(st.tasks, id).Some? ==>
              var i := FindIndex(st.tasks, id).value;
              r.tasks == st.tasks[i := MarkCompleted(st.tasks[i], now)]
    decreases fuel, 3, 0
  {
    match FindIndex(st.tasks, id)
    case None => st
    case Some(i) =>
      var updated := MarkCompleted(st.tasks[i], now);
      var after := ProcessRun(st, TaskCompleted, updated, now, fuel);
      after.(tasks := st.tasks[i := updated])
  }

  /** One `processAutomations` call per event, in order. */
  function ProcessEach(st: State, evs: seq<Trigger>, task: Task, now: int, fuel: nat): (r: State)
    ensures Extends(st, r)
    decreases fuel, 2, |evs|
  {
    if evs == [] then st
    else ProcessEach(ProcessRun(st, evs[0], task, now, fuel), evs[1..], task, now, fuel)
  }

  /** `processAutomations(event, task)`: run the actions of the matching
      automations in array order. */
  function ProcessRun(st: State, ev: Trigger, task: Task, now: int, fuel: nat): (r: State)
    ensures Extends(st, r)
    decreases fuel, 1, 0
  {
    if fuel == 0 then st
    else DispatchRun(st, Selected(st.automations, ev, task, now), task, now, fuel)
  }

  /** The `forEach` over the matching automations; each action runs with one
      unit of fuel less. */
  function DispatchRun(st: State, ms: seq<Automation>, task: Task, now: int, fuel: nat): (r: State)
    requires fuel > 0
    ensures Extends(st, r)
    decreases fuel, 0, |ms|
  {
    if ms == [] then st
    else DispatchRun(ActRun(st, ms[0].action, task, now, fuel - 1), ms[1..], task, now, fuel)
  }

  /** One action, applied to the subject task of the event. */
  function ActRun(st: State, action: Action, task: Task, now: int, fuel: nat): (r: State)
    ensures Extends(st, r)
    decreases fuel, 4, 0
  {
    match action
    case CreateTask(_, _, _, _) => AddTaskRun(st, CreatedInput(action), now, fuel)
    case ChangePriority(p) => UpdateTaskRun(st, task.id, NoChanges.(priority := Some(p)), now, fuel)
    case AddTag(g) =>
      if g in task.tags then st
      else UpdateTaskRun(st, task.id, NoChanges.(tags := Some(task.tags + [g])), now, fuel)
    case SendNotification(m) => st.(notifications := st.notifications + [m])
  }

  /** The `forEach` loop's step: dispatching a non-empty list is acting on its
      head, then dispatching the rest. */
  lemma DispatchStep(st: State, ms: seq<Automation>, task: Task, now: int, fuel: nat)
    requires fuel > 0 && ms != []
    ensures DispatchRun(st, ms, task, now, fuel)
            == DispatchRun(ActRun(st, ms[0].action, task, now, fuel - 1), ms[1..], task, now, fuel)
  {
  }
}

=== FILE: filtering.dfy ===
/** `useFilteredTasks` in lib/store.ts: the task list narrowed by the store's
    filter record, four tests that must all pass, order kept. */
module Filtering {
  import opened Types
  import opened Seqs
  import opened Text

  predicate StatusOk(f: TaskFilter, t: Task)
  {
    f.status.AnyStatus? || t.status == f.status.status
  }

  predicate PriorityOk(f: TaskFilter, t: Task)
  {
    f.priority.AnyPriority? || t.priority == f.priority.priority
  }

  /** An empty tag list lets everything through; otherwise the task must carry
      at least one of the listed tags. */
  predicate TagsOk(f: TaskFilter, t: Task)
  {
    |f.tags| == 0 || exists x :: x in f.tags && x in t.tags
  }

  /** An empty query lets everything through; otherwise the lower-cased title
      must contain the lower-cased query. */
  predicate SearchOk(f: TaskFilter, t: Task)
  {
    f.searchQuery == "" || Includes(Lower(t.title), Lower(f.searchQuery))
  }

  predicate Passes(f: TaskFilter, t: Task)
  {
    StatusOk(f, t) && PriorityOk(f, t) && TagsOk(f, t) && SearchOk(f, t)
  }

  /** The visible tasks: an order-preserving selection of exactly those that pass
      all four tests; with the filter reset it is the whole list. */
  function FilteredTasks(tasks: seq<Task>, f: TaskFilter): (r: seq<Task>)
    ensures IsSubseq(r, tasks)
    ensures forall t :: t in r <==> t in tasks && StatusOk(f, t) && PriorityOk(f, t) && TagsOk(f, t) && SearchOk(f, t)
    ensures f == DefaultFilter ==> r == tasks
    ensures forall t :: multiset(r)[t] == if Passes(f, t) then multiset(tasks)[t] else 0
  {
    KeepCounts(tasks, (t: Task) => Passes(f, t));
    Keep(tasks, (t: Task) => Passes(f, t))
  }

  /** The search test, read as "the lower-cased query occurs at some index of
      the lower-cased title". */
  lemma SearchOkAt(f: TaskFilter, t: Task)
    requires f.searchQuery != ""
    ensures SearchOk(f, t) <==> exists i :: OccursAt(Lower(t.title), Lower(f.searchQuery), i)
  {
    IncludesAt(Lower(t.title), Lower(f.searchQuery));
  }

  /** The search test ignores case: upper-casing or lower-casing the query, or
      upper-casing the title, lets the same tasks through. */
  lemma SearchIgnoresCase(f: TaskFilter, t: Task)
    ensures SearchOk(f, t) <==> SearchOk(f.(searchQuery := Upper(f.searchQuery)), t)
    ensures SearchOk(f, t) <==> SearchOk(f.(searchQuery := Lower(f.searchQuery)), t)
    ensures SearchOk(f, t) <==> SearchOk(f, t.(title := Upper(t.title)))
  {
    LowerForgetsCase(f.searchQuery);
    LowerForgetsCase(t.title);
  }

  /** Filtering twice by the same filter changes nothing more. */
  lemma FilterIdempotent(tasks: seq<Task>, f: TaskFilter)
    ensures FilteredTasks(FilteredTasks(tasks, f), f) == FilteredTasks(tasks, f)
  {
    var r := FilteredTasks(tasks, f);
    assert forall i :: 0 <= i < |r| ==> r[i] in r;
  }
}

=== FILE: focus.dfy ===
/** The Pomodoro timer of app/focus/page.tsx. The page keeps its timer in React
    state that its handlers update through setters; here that state is the
    fields of class `Timer`, and each handler is a method proved to move the
    timer as the matching step function describes. The one-second interval is
    not modelled: `Tick` is what one firing of it does. */
module Pomodoro {
  import opened Text

  datatype Mode = Focus | ShortBreak | LongBreak

  /** The settings panel: three durations in minutes and two auto-start
      switches. */
  datatype Settings = Settings(focusMinutes: int, shortBreakMinutes: int, longBreakMinutes: int,
                               autoStartBreaks: bool, autoStartPomodoros: bool)

  /** `DEFAULT_TIMES`, both switches off. */
  const DefaultSettings := Settings(25, 5, 15, false, false)

  /** The slider bounds: focus 1 to 60, short break 1 to 30, long break 1 to 45
      minutes. */
  predicate SettingsInRange(s: Settings)
  {
    1 <= s.focusMinutes <= 60 && 1 <= s.shortBreakMinutes <= 30 && 1 <= s.longBreakMinutes <= 45
  }

  /** The timer proper. */
  datatype TimerState = TimerState(mode: Mode, running: bool, timeLeft: int, count: nat)

  /** A full interval of the given mode, in seconds. */
  function Duration(s: Settings, m: Mode): (r: int)
    ensures SettingsInRange(s) ==> 60 <= r <= 3600
  {
    match m
    case Focus => s.focusMinutes * 60
    case ShortBreak => s.shortBreakMinutes * 60
    case LongBreak => s.longBreakMinutes * 60
  }

  /** What the page shows between ticks: at least one second and at most an
      hour left. */
  predicate InRange(t: TimerState)
  {
    1 <= t.timeLeft <= 3600
  }

  /** `handleTimerComplete`. A focus interval counts one more pomodoro and is
      followed by a long break after every fourth, a short break otherwise; a
      break is followed by focus with the count unchanged. The new interval is
      full, and starts at once if its auto-start switch is on. */
  function CompleteStep(t: TimerState, s: Settings): (r: TimerState)
    ensures t.mode == Focus ==> r.count == t.count + 1 && r.mode != Focus
    ensures t.mode == Focus ==> (r.mode == LongBreak <==> t.count % 4 == 3)
    ensures t.mode != Focus ==> r.count == t.count && r.mode == Focus
    ensures r.timeLeft == Duration(s, r.mode)
    ensures r.running <==> t.running || (if t.mode == Focus then s.autoStartBreaks else s.autoStartPomodoros)
    ensures SettingsInRange(s) ==> InRange(r)
  {
    if t.mode == Focus then
      var next := if t.count % 4 == 3 then LongBreak else ShortBreak;
      TimerState(next, t.running || s.autoStartBreaks, Duration(s, next), t.count + 1)
    else
      TimerState(Focus, t.running || s.autoStartPomodoros, Duration(s, Focus), t.count)
  }

  /** One firing of the interval, which exists only while the timer runs with
      time left. Above one second it counts down by one; at one second or less
      it stops the timer and completes the interval. */
  function TickStep(t: TimerState, s: Settings): (r: TimerState)
    ensures !(t.running && t.timeLeft > 0) ==> r == t
    ensures t.running && t.timeLeft > 1 ==> r == t.(timeLeft := t.timeLeft - 1)
    ensures t.running && 0 < t.timeLeft <= 1 ==>
              r.timeLeft == Duration(s, r.mode) &&
              (r.running <==> if t.mode == Focus then s.autoStartBreaks else s.autoStartPomodoros)
    ensures t.running && 0 < t.timeLeft <= 1 ==> r == CompleteStep(t.(running := false, timeLeft := 0), s)
    ensures t.running && 0 < t.timeLeft <= 1 ==> r.mode != t.mode
    ensures r.mode != t.mode ==> t.running && 0 < t.timeLeft <= 1
    ensures SettingsInRange(s) && InRange(t) ==> InRange(r)
  {
    if !(t.running && t.timeLeft > 0) then t
    else if t.timeLeft <= 1 then CompleteStep(t.(running := false, timeLeft := 0), s)
    else t.(timeLeft := t.timeLeft - 1)
  }

  /** `resetTimer`: stopped, with the current mode's full duration. */
  function ResetStep(t: TimerState, s: Settings): (r: TimerState)
    ensures !r.running && r.mode == t.mode && r.count == t.count
    ensures r.timeLeft == Duration(s, t.mode)
    ensures SettingsInRange(s) ==> InRange(r)
  {
    t.(running := false, timeLeft := Duration(s, t.mode))
  }

  /** The three mode buttons: the chosen mode, full, stopped. */
  function SelectStep(t: TimerState, s: Settings, m: Mode): (r: TimerState)
    ensures r.mode == m && !r.running && r.count == t.count
    ensures r.timeLeft == Duration(s, m)
    ensures SettingsInRange(s) ==> InRange(r)
  {
    TimerState(m, false, Duration(s, m), t.count)
  }

  /** Resetting twice is resetting once, and a reset right after choosing a
      mode changes nothing. */
  lemma ResetIdempotent(t: TimerState, s: Settings, m: Mode)
    ensures ResetStep(ResetStep(t, s), s) == ResetStep(t, s)
    ensures ResetStep(SelectStep(t, s, m), s) == SelectStep(t, s, m)
  {
  }

  /** `n` completions in a row. */
  function CompleteTimes(t: TimerState, s: Settings, n: nat): TimerState
    decreases n
  {
    if n == 0 then t else CompleteTimes(CompleteStep(t, s), s, n - 1)
  }

  /** Starting from focus, every second completion lands back on focus with one
      more pomodoro counted, and the break in between is a long one exactly
      when it follows a fourth pomodoro. */
  lemma {:induction false} CompletionCycle(t: TimerState, s: Settings, k: nat)
    requires t.mode == Focus
    ensures CompleteTimes(t, s, 2 * k).mode == Focus
    ensures CompleteTimes(t, s, 2 * k).count == t.count + k
    ensures CompleteTimes(t, s, 2 * k + 1).mode == (if (t.count + k) % 4 == 3 then LongBreak else ShortBreak)
    decreases k
  {
    if k > 0 {
      var u := CompleteStep(CompleteStep(t, s), s);
      assert u.mode == Focus && u.count == t.count + 1;
      CompletionCycle(u, s, k - 1);
      assert CompleteTimes(t, s, 2 * k) == CompleteTimes(u, s, 2 * (k - 1));
      assert CompleteTimes(t, s, 2 * k + 1) == CompleteTimes(u, s, 2 * (k - 1) + 1);
    }
  }

  /** Of any four pomodoros in a row, exactly the one that ends with a count
      divisible by four is followed by a long break. */
  lemma OneLongBreakInFour(t: TimerState, s: Settings)
    requires t.mode == Focus && t.count % 4 == 0
    ensures CompleteTimes(t, s, 1).mode == ShortBreak
    ensures CompleteTimes(t, s, 3).mode == ShortBreak
    ensures CompleteTimes(t, s, 5).mode == ShortBreak
    ensures CompleteTimes(t, s, 7).mode == LongBreak
    ensures CompleteTimes(t, s, 8).count == t.count + 4
  {
    CompletionCycle(t, s, 0);
    CompletionCycle(t, s, 1);
    CompletionCycle(t, s, 2);
    CompletionCycle(t, s, 3);
    CompletionCycle(t, s, 4);
  }

  /** `formatTime`: minutes, a colon, then seconds, each at least two digits.
      Reading the two numbers back gives the seconds it was called with. */
  function FormatTime(seconds: nat): (r: string)
    ensures |r| >= 5 && r[|r| - 3] == ':'
    ensures AllDigits(r[..|r| - 3]) && AllDigits(r[|r| - 2..])
    ensures DigitsValue(r[..|r| - 3]) * 60 + DigitsValue(r[|r| - 2..]) == seconds
    ensures DigitsValue(r[|r| - 2..]) < 60
    ensures seconds < 6000 <==> |r| == 5
  {
    var mins := PadTwo(NatToString(seconds / 60));
    var secs := PadTwo(NatToString(seconds % 60));
    assert (mins + ":" + secs)[..|mins|] == mins;
    assert (mins + ":" + secs)[|mins| + 1..] == secs;
    mins + ":" + secs
  }

  /** The page's timer state. */
  class Timer {
    var mode: Mode
    var running: bool
    var timeLeft: int
    var count: nat
    var focusMinutes: int
    var shortBreakMinutes: int
    var longBreakMinutes: int
    var autoStartBreaks: bool
    var autoStartPomodoros: bool

    function State(): TimerState
      reads this
    {
      TimerState(mode, running, timeLeft, count)
    }

    function Config(): Settings
      reads this
    {
      Settings(focusMinutes, shortBreakMinutes, longBreakMinutes, autoStartBreaks, autoStartPomodoros)
    }

    /** The settings are within the sliders' bounds and the time left within
        one hour. */
    predicate Valid()
      reads this
    {
      SettingsInRange(Config()) && InRange(State())
    }

    /** The page's initial state: focus, stopped, 25 minutes, no pomodoros. */
    constructor ()
      ensures Config() == DefaultSettings
      ensures State() == TimerState(Focus, false, 25 * 60, 0)
      ensures Valid()
    {
      mode := Focus;
      running := false;
      timeLeft := 25 * 60;
      count := 0;
      focusMinutes := 25;
      shortBreakMinutes := 5;
      longBreakMinutes := 15;
      autoStartBreaks := false;
      autoStartPomodoros := false;
    }

    method Complete()
      modifies this
      ensures State() == CompleteStep(old(State()), old(Config())) && Config() == old(Config())
    {
      if mode == Focus {
        var wasCount := count;
        count := count + 1;
        if wasCount % 4 == 3 {
          mode := LongBreak;
          timeLeft := longBreakMinutes * 60;
          if autoStartBreaks { running := true; }
        } else {
          mode := ShortBreak;
          timeLeft := shortBreakMinutes * 60;
          if autoStartBreaks { running := true; }
        }
      } else {
        mode := Focus;
        timeLeft := focusMinutes * 60;
        if autoStartPomodoros { running := true; }
      }
    }

    method Tick()
      modifies this
      ensures State() == TickStep(old(State()), old(Config())) && Config() == old(Config())
      ensures old(Valid()) ==> Valid()
    {
      if !(running && timeLeft > 0) {
        return;
      }
      if timeLeft <= 1 {
        running := false;
        timeLeft := 0;
        Complete();
      } else {
        timeLeft := timeLeft - 1;
      }
    }

    /** `toggleTimer`: start or pause. */
    method Toggle()
      modifies this
      ensures State() == old(State()).(running := !old(running)) && Config() == old(Config())
    {
      running := !running;
    }

    method Reset()
      modifies this
      ensures State() == ResetStep(old(State()), old(Config())) && Config() == old(Config())
      ensures old(Valid()) ==> Valid()
    {
      running := false;
      match mode
      case Focus => timeLeft := focusMinutes * 60;
      case ShortBreak => timeLeft := shortBreakMinutes * 60;
      case LongBreak => timeLeft := longBreakMinutes * 60;
    }

    method Select(m: Mode)
      modifies this
      ensures State() == SelectStep(old(State()), old(Config()), m) && Config() == old(Config())
      ensures old(Valid()) ==> Valid()
    {
      mode := m;
      timeLeft := Duration(Config(), m);
      running := false;
    }

    /** The focus slider; the time left is not touched. */
    method SetFocusMinutes(v: int)
      requires 1 <= v <= 60
      modifies this
      ensures Config() == old(Config()).(focusMinutes := v) && State() == old(State())
      ensures old(Valid()) ==> Valid()
    {
      focusMinutes := v;
    }

    method SetShortBreakMinutes(v: int)
      requires 1 <= v <= 30
      modifies this
      ensures Config() == old(Config()).(shortBreakMinutes := v) && State() == old(State())
      ensures old(Valid()) ==> Valid()
    {
      shortBreakMinutes := v;
    }

    method SetLongBreakMinutes(v: int)
      requires 1 <= v <= 45
      modifies this
      ensures Config() == old(Config()).(longBreakMinutes := v) && State() == old(State())
      ensures old(Valid()) ==> Valid()
    {
      longBreakMinutes := v;
    }

    method SetAutoStartBreaks(on: bool)
      modifies this
      ensures Config() == old(Config()).(autoStartBreaks := on) && State() == old(State())
    {
      autoStartBreaks := on;
    }

    method SetAutoStartPomodoros(on: bool)
      modifies this
      ensures Config() == old(Config()).(autoStartPomodoros := on) && State() == old(State())
    {
      autoStartPomodoros := on;
    }

    /** What the big clock shows. */
    function Display(): (r: string)
      reads this
      requires Valid()
      ensures |r| == 5
    {
      FormatTime(timeLeft)
    }
  }
}

=== FILE: matching.dfy ===
/** Which automations an event selects: the three filter stages at the head of
    `processAutomations` in lib/store.ts (active, trigger type, type-specific
    refinement), and the day arithmetic of the due-soon rule. */
module Matching {
  import opened Types
  import opened Seqs

  /** One day in milliseconds: `1000 * 60 * 60 * 24`. */
  const DayMs: int := 86400000

  /** `Math.ceil(n / d)` for a positive divisor, in integer arithmetic that is
      also right for negative `n` (Dafny's `/` rounds towards minus infinity). */
  function CeilDiv(n: int, d: int): (q: int)
    requires d > 0
    ensures (q - 1) * d < n <= q * d
  {
    if n % d == 0 then n / d else n / d + 1
  }

  /** Whole days, rounded up, from `now` until `due`; negative once overdue. */
  function DaysUntilDue(due: int, now: int): (days: int)
    ensures (days - 1) * DayMs < due - now <= days * DayMs
  {
    CeilDiv(due - now, DayMs)
  }

  /** `automation.trigger.type === trigger.type`. */
  predicate SameType(t: Trigger, ev: Trigger)
  {
    match (t, ev)
    case (TaskCreated, TaskCreated) => true
    case (TaskCompleted, TaskCompleted) => true
    case (TaskDueSoon(_), TaskDueSoon(_)) => true
    case (PriorityChanged(_), PriorityChanged(_)) => true
    case (TagAdded(_), TagAdded(_)) => true
    case _ => false
  }

  /** The extra condition checked once the types agree, chosen by the event's type. */
  predicate Refines(t: Trigger, ev: Trigger, task: Task, now: int)
  {
    match ev
    case PriorityChanged(p) => t.PriorityChanged? && t.priority == p
    case TagAdded(g) => t.TagAdded? && t.tag == g
    case TaskDueSoon(_) =>
      t.TaskDueSoon? && task.dueDate.Some? && DaysUntilDue(task.dueDate.value, now) <= t.days
    case _ => true
  }

  /** Stage one: `automations.filter(a => a.active)`. */
  function ActiveOnly(autos: seq<Automation>): (r: seq<Automation>)
    ensures forall a :: a in r <==> a in autos && a.active
  {
    Keep(autos, (a: Automation) => a.active)
  }

  /** Stage two: the type test followed by the refinement, in one filter. */
  function TriggeredBy(autos: seq<Automation>, ev: Trigger, task: Task, now: int): (r: seq<Automation>)
    ensures forall a :: a in r <==> a in autos && SameType(a.trigger, ev) && Refines(a.trigger, ev, task, now)
  {
    Keep(autos, (a: Automation) => SameType(a.trigger, ev) && Refines(a.trigger, ev, task, now))
  }

  /** The whole selection rule for one automation, written per trigger type. */
  predicate Matches(a: Automation, ev: Trigger, task: Task, now: int)
  {
    a.active &&
    match (a.trigger, ev)
    case (TaskCreated, TaskCreated) => true
    case (TaskCompleted, TaskCompleted) => true
    case (TaskDueSoon(days), TaskDueSoon(_)) =>
      task.dueDate.Some? && DaysUntilDue(task.dueDate.value, now) <= days
    case (PriorityChanged(p), PriorityChanged(q)) => p == q
    case (TagAdded(g), TagAdded(h)) => g == h
    case _ => false
  }

  /** A task due now or earlier matches every active due-soon automation whose
      day count is zero or more, and a task due later than `days` whole days
      from now matches none with that count. */
  lemma DueSoonBoundary(a: Automation, ev: Trigger, task: Task, now: int)
    requires a.active && a.trigger.TaskDueSoon? && ev.TaskDueSoon? && task.dueDate.Some?
    ensures task.dueDate.value <= now && a.trigger.days >= 0 ==> Matches(a, ev, task, now)
    ensures task.dueDate.value > now + a.trigger.days * DayMs ==> !Matches(a, ev, task, now)
  {
    var d := DaysUntilDue(task.dueDate.value, now);
    if task.dueDate.value > now + a.trigger.days * DayMs {
      assert a.trigger.days * DayMs < d * DayMs;
    }
  }

  /** The two stages select exactly what one filter by `Matches` selects. */
  lemma StagesAreOneFilter(autos: seq<Automation>, ev: Trigger, task: Task, now: int)
    ensures TriggeredBy(ActiveOnly(autos), ev, task, now) == Keep(autos, (a: Automation) => Matches(a, ev, task, now))
  {
    KeepKeep(autos, (a: Automation) => a.active,
             (a: Automation) => SameType(a.trigger, ev) && Refines(a.trigger, ev, task, now),
             (a: Automation) => Matches(a, ev, task, now));
  }

  /** The automations `processAutomations` acts on: those that match, in
      automations-array order. */
  function Selected(autos: seq<Automation>, ev: Trigger, task: Task, now: int): (r: seq<Automation>)
    ensures forall a :: a in r <==> a in autos && Matches(a, ev, task, now)
    ensures IsSubseq(r, autos)
  {
    StagesAreOneFilter(autos, ev, task, now);
    TriggeredBy(ActiveOnly(autos), ev, task, now)
  }

  /** Selection distributes over concatenation, so earlier automations act first. */
  lemma SelectedConcat(a: seq<Automation>, b: seq<Automation>, ev: Trigger, task: Task, now: int)
    ensures Selected(a + b, ev, task, now) == Selected(a, ev, task, now) + Selected(b, ev, task, now)
  {
    StagesAreOneFilter(a + b, ev, task, now);
    StagesAreOneFilter(a, ev, task, now);
    StagesAreOneFilter(b, ev, task, now);
    KeepConcat(a, b, (x: Automation) => Matches(x, ev, task, now));
  }
}

=== FILE: seqs.dfy ===
/** Sequence helpers shared by the store, the engine and the task filter:
    the order-preserving `Array.prototype.filter` and the subsequence relation. */
module Seqs {

  /** `r` is obtained from `s` by deleting elements, keeping the order of the rest. */
  predicate IsSubseq<T(==)>(r: seq<T>, s: seq<T>)
    decreases |s|
  {
    if r == [] then true
    else if s == [] then false
    else (r[0] == s[0] && IsSubseq(r[1..], s[1..])) || IsSubseq(r, s[1..])
  }

  /** `s.filter(p)`: the elements of `s` satisfying `p`, in their original order. */
  function Keep<T(==,!new)>(s: seq<T>, p: T -> bool): (r: seq<T>)
    ensures |r| <= |s|
    ensures forall x :: x in r <==> x in s && p(x)
    ensures IsSubseq(r, s)
    ensures (forall i :: 0 <= i < |s| ==> p(s[i])) ==> r == s
  {
    if s == [] then []
    else if p(s[0]) then [s[0]] + Keep(s[1..], p)
    else Keep(s[1..], p)
  }

  /** `filter` keeps every copy of a passing element and none of a failing one. */
  lemma {:induction false} KeepCounts<T(!new)>(s: seq<T>, p: T -> bool)
    ensures forall x :: multiset(Keep(s, p))[x] == if p(x) then multiset(s)[x] else 0
  {
    if s != [] {
      assert s == [s[0]] + s[1..];
      KeepCounts(s[1..], p);
    }
  }

  /** Filtering distributes over concatenation: the kept elements of a prefix
      come before the kept elements of the rest. */
  lemma {:induction false} KeepConcat<T(!new)>(a: seq<T>, b: seq<T>, p: T -> bool)
    ensures Keep(a + b, p) == Keep(a, p) + Keep(b, p)
  {
    if a == [] {
      assert a + b == b;
    } else {
      assert (a + b)[0] == a[0];
      assert (a + b)[1..] == a[1..] + b;
      KeepConcat(a[1..], b, p);
    }
  }

  /** Two successive filters are one filter by the conjunction of their tests. */
  lemma {:induction false} KeepKeep<T(!new)>(s: seq<T>, p: T -> bool, q: T -> bool, pq: T -> bool)
    requires forall x :: pq(x) == (p(x) && q(x))
    ensures Keep(Keep(s, p), q) == Keep(s, pq)
  {
    if s != [] {
      KeepKeep(s[1..], p, q, pq);
    }
  }
}

=== FILE: store.dfy ===
/** The zustand store of lib/store.ts as an object whose fields every action
    reassigns. The task actions and `processAutomations` are methods that call
    each other as the source's closures do; each is proved to leave the store in
    the state the corresponding function of module Engine describes. Time (`now`)
    is a parameter; fresh ids come from the `minted` counter. */
module TaskStore {
  import opened Types
  import opened Seqs
  import opened Matching
  import opened Engine
  import opened Collections
  import opened Filtering

  class Store {
    var tasks: seq<Task>
    var tags: seq<Tag>
    var automations: seq<Automation>
    var documents: seq<Document>
    var filter: TaskFilter
    var minted: nat
    var notifications: seq<string>

    /** The whole store as a value. */
    function Snapshot(): State
      reads this
    {
      State(tasks, tags, automations, documents, filter, minted, notifications)
    }

    /** The initial state: no tasks, the three default tags, no automations, no
        documents, the filter reset. */
    constructor ()
      ensures tasks == [] && automations == [] && documents == [] && filter == DefaultFilter
      ensures tags == [Tag(MintId(0), "Personal", "#3b82f6"), Tag(MintId(1), "Work", "#f97316"),
                       Tag(MintId(2), "Home", "#14b8a6")]
      ensures minted == 3 && notifications == []
    {
      tasks := [];
      tags := [Tag(MintId(0), "Personal", "#3b82f6"), Tag(MintId(1), "Work", "#f97316"),
               Tag(MintId(2), "Home", "#14b8a6")];
      automations := [];
      documents := [];
      filter := DefaultFilter;
      minted := 3;
      notifications := [];
    }

    // ---- Task actions and the automation engine ----

    method AddTask(input: TaskInput, now: int, fuel: nat)
      modifies this
      ensures Snapshot() == AddTaskRun(old(Snapshot()), input, now, fuel)
      decreases fuel, 2, 0
    {
      var t := NewTask(MintId(minted), input, now);
      tasks := tasks + [t];
      minted := minted + 1;
      ProcessAutomations(TaskCreated, t, now, fuel);
    }

    method UpdateTask(id: Id, upd: TaskUpdate, now: int, fuel: nat)
      modifies this
      ensures Snapshot() == UpdateTaskRun(old(Snapshot()), id, upd, now, fuel)
      decreases fuel, 3, 0
    {
      var found := FindIndex(tasks, id);
      if found.None? {
        return;
      }
      var i := found.value;
      var updated := Merge(tasks[i], upd, now);
      var newTasks := tasks[i := updated];
      var pending := UpdateEvents(tasks[i], upd);
      ghost var goal := ProcessEach(Snapshot(), pending, updated, now, fuel);
      while pending != []
        invariant ProcessEach(Snapshot(), pending, updated, now, fuel) == goal
        decreases |pending|
      {
        ProcessAutomations(pending[0], updated, now, fuel);
        pending := pending[1..];
      }
      tasks := newTasks;
    }

    method DeleteTask(id: Id)
      modifies this
      ensures Snapshot() == old(Snapshot()).(tasks := WithoutTask(old(tasks), id))
    {
      tasks := WithoutTask(tasks, id);
    }

    method CompleteTask(id: Id, now: int, fuel: nat)
      modifies this
      ensures Snapshot() == CompleteTaskRun(old(Snapshot()), id, now, fuel)
      decreases fuel, 3, 0
    {
      var found := FindIndex(tasks, id);
      if found.None? {
        return;
      }
      var i := found.value;
      var updated := MarkCompleted(tasks[i], now);
      var newTasks := tasks[i := updated];
      ProcessAutomations(TaskCompleted, updated, now, fuel);
      tasks := newTasks;
    }

    /** `processAutomations`: select once, from the automations as they are
        when the event arrives, then run the `forEach`. */
    method ProcessAutomations(ev: Trigger, task: Task, now: int, fuel: nat)
      modifies this
      ensures Snapshot() == ProcessRun(old(Snapshot()), ev, task, now, fuel)
      decreases fuel, 1, 0
    {
      if fuel == 0 {
        return;
      }
      Dispatch(Selected(automations, ev, task, now), task, now, fuel);
    }

    /** The `forEach` over the selected automations: each action sees the store
        as the previous one left it. */
    method Dispatch(ms: seq<Automation>, task: Task, now: int, fuel: nat)
      requires fuel > 0
      modifies this
      ensures Snapshot() == DispatchRun(old(Snapshot()), ms, task, now, fuel)
      decreases fuel, 0, |ms|
    {
      var todo := ms;
      while todo != []
        invariant DispatchRun(Snapshot(), todo, task, now, fuel) == DispatchRun(old(Snapshot()), ms, task, now, fuel)
        decreases |todo|
      {
        DispatchStep(Snapshot(), todo, task, now, fuel);
        RunAction(todo[0].action, task, now, fuel - 1);
        todo := todo[1..];
      }
    }

    method RunAction(action: Action, task: Task, now: int, fuel: nat)
      modifies this
      ensures Snapshot() == ActRun(old(Snapshot()), action, task, now, fuel)
      decreases fuel, 4, 0
    {
      match action
      case CreateTask(_, _, _, _) =>
        AddTask(CreatedInput(action), now, fuel);
      case ChangePriority(p) =>
        UpdateTask(task.id, NoChanges.(priority := Some(p)), now, fuel);
      case AddTag(g) =>
        if g !in task.tags {
          UpdateTask(task.id, NoChanges.(tags := Some(task.tags + [g])), now, fuel);
        }
      case SendNotification(m) =>
        notifications := notifications + [m];
    }

    // ---- Tag actions ----

    method AddTag(name: string, color: string)
      modifies this
      ensures Snapshot() == old(Snapshot()).(tags := old(tags) + [Tag(MintId(old(minted)), name, color)],
                                             minted := old(minted) + 1)
    {
      tags := tags + [Tag(MintId(minted), name, color)];
      minted := minted + 1;
    }

    method UpdateTag(id: Id, upd: TagUpdate)
      modifies this
      ensures Snapshot() == old(Snapshot()).(tags := UpdateTagById(old(tags), id, upd))
    {
      tags := UpdateTagById(tags, id, upd);
    }

    /** Removes the tag and strips its id from every task; automations and
        documents keep whatever references they hold. */
    method DeleteTag(id: Id, now: int)
      modifies this
      ensures Snapshot() == old(Snapshot()).(tags := WithoutTag(old(tags), id),
                                             tasks := StripTag(old(tasks), id, now))
    {
      tags := WithoutTag(tags, id);
      tasks := StripTag(tasks, id, now);
    }

    // ---- Automation actions ----

    method AddAutomation(name: string, active: bool, trigger: Trigger, action: Action, now: int)
      modifies this
      ensures Snapshot() == old(Snapshot()).(
                automations := old(automations) + [Automation(MintId(old(minted)), name, active, trigger, action, now)],
                minted := old(minted) + 1)
    {
      automations := automations + [Automation(MintId(minted), name, active, trigger, action, now)];
      minted := minted + 1;
    }

    method UpdateAutomation(id: Id, upd: AutomationUpdate)
      modifies this
      ensures Snapshot() == old(Snapshot()).(automations := UpdateAutomationById(old(automations), id, upd))
    {
      automations := UpdateAutomationById(automations, id, upd);
    }

    method DeleteAutomation(id: Id)
      modifies this
      ensures Snapshot() == old(Snapshot()).(automations := WithoutAutomation(old(automations), id))
    {
      automations := WithoutAutomation(automations, id);
    }

    method ToggleAutomation(id: Id)
      modifies this
      ensures Snapshot() == old(Snapshot()).(automations := ToggleById(old(automations), id))
    {
      automations := ToggleById(automations, id);
    }

    // ---- Document actions ----

    method AddDocument(title: string, content: string, docTags: seq<Id>, now: int)
      modifies this
      ensures Snapshot() == old(Snapshot()).(
                documents := old(documents) + [Document(MintId(old(minted)), title, content, docTags, now, now)],
                minted := old(minted) + 1)
    {
      documents := documents + [Document(MintId(minted), title, content, docTags, now, now)];
      minted := minted + 1;
    }

    method UpdateDocument(id: Id, upd: DocumentUpdate, now: int)
      modifies this
      ensures Snapshot() == old(Snapshot()).(documents := UpdateDocumentById(old(documents), id, upd, now))
    {
      documents := UpdateDocumentById(documents, id, upd, now);
    }

    method DeleteDocument(id: Id)
      modifies this
      ensures Snapshot() == old(Snapshot()).(documents := WithoutDocument(old(documents), id))
    {
      documents := WithoutDocument(documents, id);
    }

    // ---- Filter actions ----

    method SetStatusFilter(s: StatusFilter)
      modifies this
      ensures Snapshot() == old(Snapshot()).(filter := old(filter).(status := s))
    {
      filter := filter.(status := s);
    }

    method SetPriorityFilter(p: PriorityFilter)
      modifies this
      ensures Snapshot() == old(Snapshot()).(filter := old(filter).(priority := p))
    {
      filter := filter.(priority := p);
    }

    method ToggleTagFilter(t: Id)
      modifies this
      ensures Snapshot() == old(Snapshot()).(filter := old(filter).(tags := ToggleTag(old(filter).tags, t)))
    {
      filter := filter.(tags := ToggleTag(filter.tags, t));
    }

    method SetSearchQuery(q: string)
      modifies this
      ensures Snapshot() == old(Snapshot()).(filter := old(filter).(searchQuery := q))
    {
      filter := filter.(searchQuery := q);
    }

    /** After a reset every task is visible again. */
    method ResetFilters()
      modifies this
      ensures Snapshot() == old(Snapshot()).(filter := DefaultFilter)
      ensures Visible() == tasks
    {
      filter := DefaultFilter;
    }

    /** `useFilteredTasks()`. */
    function Visible(): (r: seq<Task>)
      reads this
      ensures IsSubseq(r, tasks)
      ensures forall t :: t in r <==> t in tasks && Passes(filter, t)
      ensures forall t :: multiset(r)[t] == if Passes(filter, t) then multiset(tasks)[t] else 0
    {
      FilteredTasks(tasks, filter)
    }
  }
}

=== FILE: text.dfy ===
/** String helpers for the parts of the application that print numbers or
    search text: JavaScript's `Number.prototype.toString` on integers,
    `padStart(2, "0")`, ASCII `toLowerCase` and `String.prototype.includes`. */
module Text {

  predicate IsDigit(c: char) { '0' <= c <= '9' }

  predicate AllDigits(s: string) { forall i :: 0 <= i < |s| ==> IsDigit(s[i]) }

  function DigitChar(d: nat): (c: char)
    requires d < 10
    ensures IsDigit(c) && c as int - '0' as int == d
  {
    ('0' as int + d) as char
  }

  /** The value of a string of decimal digits, read most significant first. */
  function DigitsValue(s: string): nat
    requires AllDigits(s)
    decreases |s|
  {
    if s == [] then 0
    else DigitsValue(s[..|s| - 1]) * 10 + (s[|s| - 1] as int - '0' as int)
  }

  /** `n.toString()` for a non-negative integer: its shortest decimal numeral. */
  function NatToString(n: nat): (s: string)
    ensures AllDigits(s) && 1 <= |s|
    ensures DigitsValue(s) == n
    ensures |s| == 1 <==> n < 10
    ensures |s| == 2 <==> 10 <= n < 100
    ensures |s| > 1 ==> s[0] != '0'
  {
    if n < 10 then [DigitChar(n)]
    else
      var s := NatToString(n / 10) + [DigitChar(n % 10)];
      assert s[..|s| - 1] == NatToString(n / 10);
      s
  }

  /** `n.toString()` for any integer: a minus sign before the numeral of |n|. */
  function IntToString(n: int): (s: string)
    ensures n >= 0 ==> s == NatToString(n)
    ensures n < 0 ==> s == "-" + NatToString(-n)
  {
    if n < 0 then "-" + NatToString(-n) else NatToString(n)
  }

  /** A leading zero does not change the value of a numeral. */
  lemma {:induction false} LeadingZero(s: string)
    requires AllDigits(s)
    ensures AllDigits("0" + s) && DigitsValue("0" + s) == DigitsValue(s)
  {
    if s != [] {
      var t := "0" + s;
      assert t[..|t| - 1] == "0" + s[..|s| - 1];
      LeadingZero(s[..|s| - 1]);
    }
  }

  /** `s.padStart(2, "0")` for a numeral. */
  function PadTwo(s: string): (r: string)
    requires AllDigits(s) && 1 <= |s|
    ensures AllDigits(r) && DigitsValue(r) == DigitsValue(s)
    ensures |r| == if |s| < 2 then 2 else |s|
  {
    LeadingZero(s);
    if |s| < 2 then "0" + s else s
  }

  /** `toLowerCase` on the ASCII range; other characters are left as they are. */
  function LowerChar(c: char): (r: char)
    ensures !('A' <= r <= 'Z')
    ensures 'A' <= c <= 'Z' ==> r as int == c as int + 32
    ensures !('A' <= c <= 'Z') ==> r == c
  {
    if 'A' <= c <= 'Z' then (c as int - 'A' as int + 'a' as int) as char else c
  }

  /** `toUpperCase` on the ASCII range, the inverse direction of `LowerChar`. */
  function UpperChar(c: char): (r: char)
    ensures !('a' <= r <= 'z')
    ensures 'a' <= c <= 'z' ==> r as int == c as int - 32
    ensures !('a' <= c <= 'z') ==> r == c
  {
    if 'a' <= c <= 'z' then (c as int - 'a' as int + 'A' as int) as char else c
  }

  /** `toLowerCase`: every character lower-cased, the length kept. */
  function Lower(s: string): (r: string)
    ensures |r| == |s|
    ensures forall i :: 0 <= i < |s| ==> r[i] == LowerChar(s[i])
    ensures forall i :: 0 <= i < |r| ==> !('A' <= r[i] <= 'Z')
  {
    seq(|s|, i requires 0 <= i < |s| => LowerChar(s[i]))
  }

  /** `toUpperCase`, on the ASCII range. */
  function Upper(s: string): (r: string)
    ensures |r| == |s|
    ensures forall i :: 0 <= i < |s| ==> r[i] == UpperChar(s[i])
  {
    seq(|s|, i requires 0 <= i < |s| => UpperChar(s[i]))
  }

  /** Lower-casing twice is lower-casing once, and lower-casing forgets case:
      an upper-cased string lower-cases to the same as the original. */
  lemma LowerForgetsCase(s: string)
    ensures Lower(Lower(s)) == Lower(s)
    ensures Lower(Upper(s)) == Lower(s)
  {
    assert forall i :: 0 <= i < |s| ==> LowerChar(UpperChar(s[i])) == LowerChar(s[i]);
  }

  /** `hay.includes(needle)`: `needle` occurs in `hay` at some position. */
  predicate Includes(hay: string, needle: string)
    decreases |hay|
  {
    needle <= hay || (hay != [] && Includes(hay[1..], needle))
  }

  /** `needle` occurs in `hay` starting at index `i`. */
  predicate OccursAt(hay: string, needle: string, i: int)
  {
    0 <= i <= |hay| - |needle| && hay[i..i + |needle|] == needle
  }

  /** An occurrence at any index makes `Includes` true. */
  lemma {:induction false} OccursIncludes(hay: string, needle: string, i: int)
    requires OccursAt(hay, needle, i)
    ensures Includes(hay, needle)
    decreases i
  {
    if i == 0 {
      assert hay[..|needle|] == needle;
    } else {
      assert hay[1..][i - 1..i - 1 + |needle|] == hay[i..i + |needle|];
      OccursIncludes(hay[1..], needle, i - 1);
    }
  }

  /** `Includes` finds an index where `needle` occurs. */
  lemma {:induction false} IncludesOccurs(hay: string, needle: string) returns (i: int)
    requires Includes(hay, needle)
    ensures OccursAt(hay, needle, i)
    decreases |hay|
  {
    if needle <= hay {
      i := 0;
      assert hay[0..|needle|] == hay[..|needle|];
    } else {
      var j := IncludesOccurs(hay[1..], needle);
      i := j + 1;
      assert hay[1..][j..j + |needle|] == hay[i..i + |needle|];
    }
  }

  /** `Includes` holds exactly when `needle` occurs in `hay` at some index. */
  lemma IncludesAt(hay: string, needle: string)
    ensures Includes(hay, needle) <==> exists i :: OccursAt(hay, needle, i)
  {
    if Includes(hay, needle) {
      var i := IncludesOccurs(hay, needle);
    }
    if exists i :: OccursAt(hay, needle, i) {
      var i :| OccursAt(hay, needle, i);
      OccursIncludes(hay, needle, i);
    }
  }
}

=== FILE: types.dfy ===
/** The data model of the task store: the records and closed unions declared in
    lib/types.ts. Dates are milliseconds since the epoch (`int`), optional
    fields are `Option`s, and ids are opaque strings. */
module Types {

  datatype Option<+T> = None | Some(value: T)
  {
    /** `x || fallback` for a field whose absence means "use the default". */
    function GetOr(fallback: T): T
    {
      match this
      case Some(v) => v
      case None => fallback
    }
  }

  type Id = string

  datatype Priority = Low | Medium | High | Urgent

  datatype Status = Todo | InProgress | Completed | Archived

  /** The string each priority stands for in the source's string-literal union. */
  function PriorityName(p: Priority): (s: string)
    ensures PriorityFromName(s) == Some(p)
  {
    match p
    case Low => "low"
    case Medium => "medium"
    case High => "high"
    case Urgent => "urgent"
  }

  /** Reads a priority back from its name; only the four literals are priorities. */
  function PriorityFromName(s: string): (r: Option<Priority>)
    ensures r.Some? <==> s in ["low", "medium", "high", "urgent"]
  {
    if s == "low" then Some(Low)
    else if s == "medium" then Some(Medium)
    else if s == "high" then Some(High)
    else if s == "urgent" then Some(Urgent)
    else None
  }

  /** The string each status stands for in the source's string-literal union. */
  function StatusName(st: Status): (s: string)
    ensures StatusFromName(s) == Some(st)
  {
    match st
    case Todo => "todo"
    case InProgress => "in-progress"
    case Completed => "completed"
    case Archived => "archived"
  }

  /** Reads a status back from its name; only the four literals are statuses. */
  function StatusFromName(s: string): (r: Option<Status>)
    ensures r.Some? <==> s in ["todo", "in-progress", "completed", "archived"]
  {
    if s == "todo" then Some(Todo)
    else if s == "in-progress" then Some(InProgress)
    else if s == "completed" then Some(Completed)
    else if s == "archived" then Some(Archived)
    else None
  }

  /** Reading a name back and printing it again gives the same name: the
      four priorities and the four statuses are exactly their four literals. */
  lemma NamesRoundTrip(s: string)
    ensures PriorityFromName(s).Some? ==> PriorityName(PriorityFromName(s).value) == s
    ensures StatusFromName(s).Some? ==> StatusName(StatusFromName(s).value) == s
  {
  }

  datatype Tag = Tag(id: Id, name: string, color: string)

  /** A task refers to its tags by id, in the order they were attached. */
  datatype Task = Task(
    id: Id,
    title: string,
    description: Option<string>,
    status: Status,
    priority: Priority,
    tags: seq<Id>,
    dueDate: Option<int>,
    createdAt: int,
    updatedAt: int,
    completedAt: Option<int>)

  /** What an automation listens for. The engine also receives events of this
      same shape. */
  datatype Trigger =
    | TaskCreated
    | TaskCompleted
    | TaskDueSoon(days: int)
    | PriorityChanged(priority: Priority)
    | TagAdded(tag: Id)

  /** What an automation does; only `CreateTask` has optional fields. */
  datatype Action =
    | CreateTask(title: string, description: Option<string>, newPriority: Option<Priority>, newTags: Option<seq<Id>>)
    | ChangePriority(target: Priority)
    | AddTag(tag: Id)
    | SendNotification(message: string)

  datatype Automation = Automation(
    id: Id,
    name: string,
    active: bool,
    trigger: Trigger,
    action: Action,
    createdAt: int)

  datatype Document = Document(
    id: Id,
    title: string,
    content: string,
    tags: seq<Id>,
    createdAt: int,
    updatedAt: int)

  /** The argument of `addTask`: a task without `id`, `createdAt` and `updatedAt`. */
  datatype TaskInput = TaskInput(
    title: string,
    description: Option<string>,
    status: Status,
    priority: Priority,
    tags: seq<Id>,
    dueDate: Option<int>,
    completedAt: Option<int>)

  /** The argument of `updateTask`: every field optional; `None` means "not supplied". */
  datatype TaskUpdate = TaskUpdate(
    title: Option<string>,
    description: Option<string>,
    status: Option<Status>,
    priority: Option<Priority>,
    tags: Option<seq<Id>>,
    dueDate: Option<int>,
    completedAt: Option<int>)

  const NoChanges := TaskUpdate(None, None, None, None, None, None, None)

  datatype StatusFilter = AnyStatus | OnlyStatus(status: Status)

  datatype PriorityFilter = AnyPriority | OnlyPriority(priority: Priority)

  /** The store's `filter` record; `AnyStatus`/`AnyPriority` stand for `'all'`. */
  datatype TaskFilter = TaskFilter(
    status: StatusFilter,
    priority: PriorityFilter,
    tags: seq<Id>,
    searchQuery: string)

  const DefaultFilter := TaskFilter(AnyStatus, AnyPriority, [], "")
}
